=== FILE: README.md ===
# Canvas unsubmitted-assignments sidebar, modelled in Dafny

The extension injects a panel into the right-hand sidebar of a Canvas LMS
page. The panel lists, for the signed-in user or for each student they
observe, the assignments that are open right now and still unsubmitted,
grouped by course and ordered by due time. This project models the data
pipeline behind that panel and proves what it computes:

- **Response decoding** (`Guard`): the `while(1);` guard that Canvas puts in
  front of every JSON body is removed with a first-occurrence
  `String.prototype.replace`.
- **`Link` header parsing** (`LinkHeader`): the header (section 3 of RFC 8288)
  is split on `,`. Each piece is searched with the regular expression
  `<(https:.*)>.*rel="(.*)"` and turned into a relation → URL map. The
  backtracking match is modelled exactly: leftmost start, then greedy stars,
  and `.` never crosses a line terminator. A piece that does not match makes
  the whole parse fail. The newer variant maps a missing header to the empty
  map; the older one fails on it.
- **Pagination** (`Pagination`): `getAllResponses` follows `next` links over
  an abstract server, a map from URL to a response (items plus raw `Link`
  header). It is given as a recursive function and as the source's loop,
  which is proved to compute the same thing.
- **Records and URLs** (`Canvas`): the course filter `filterInactiveClasses`.
- **The per-course pipeline** (`Assignments`): the open-window filter, one
  attached submission per open assignment, the `"unsubmitted"` filter, and
  the sort by due time.
- **The due-time clock** (`Clock`): the `h:mm AM|PM` text of a row.
- **The sidebar** (`Sidebar`): who gets a panel, one hidden-until-non-empty
  section per active course, and the rows of a section.
- **The older variant** (`Legacy`), from the root `contentScript.js`: it
  keeps every unlocked assignment, walks pages while `current != last`, and
  lists an assignment when its own submission reply is unsubmitted.

`Outcomes` holds `Option`, `Result` and the error kinds. `Text` holds
`indexOf`, `split`/`join` and decimal rendering. `Sequences` holds order-aware
filter and sort.

The model follows the code as written:

- The assignments URL has no `order_by=due_at` parameter; the list is ordered
  by the sort alone.
- A row's due time prints the hour 0 as `0`, not `12` (see Findings).

## Model

| member | source | states |
|---|---|---|
| Guard.StripGuard | src/contentScript.js:18-20 | Without a `while(1);` the text is unchanged; otherwise exactly the first occurrence is cut out, wherever it stands, and everything around it is kept |
| Guard.StripPrefixed | contentScript.js:7-9 | A body with the guard in front comes back as exactly the body |
| Guard.StripRemovesOnlyFirst | src/contentScript.js:19 | With two guards in front, one guard is left: only the first occurrence is removed |
| Text.Split | src/contentScript.js:31 | `split(",")` gives at least one piece; no piece contains a comma; joining the pieces with commas gives the header back |
| Text.SplitJoin | src/contentScript.js:31 | Splitting a comma-join of one or more comma-free pieces gives those pieces back |
| Text.NatToString | src/contentScript.js:89-90 | A number inside a template literal renders as a non-empty digit string, without a leading zero unless it is `0` itself, that reads back as the same number |
| LinkHeader.Exec | src/contentScript.js:34 | The reported match is a real match of the pattern and is preferred by backtracking order over every other match; there is no result iff the pattern matches nowhere |
| LinkHeader.MatchAt | src/contentScript.js:34 | The match tried at one start position is the backtracking-preferred one there, or there is none |
| LinkHeader.Captures | src/contentScript.js:34-36 | The URL is the text between `<` and `>` of the match and begins with `https:`; the relation is the text between `rel="` and the final `"` |
| LinkHeader.LinkOf | src/contentScript.js:34-36 | No link iff the pattern matches nowhere in the piece; otherwise the link is the groups of the match that backtracking reports, the one preferred over every other match |
| LinkHeader.MatchSegments | src/contentScript.js:33-38 | Success iff every piece matches; piece i gives link i; otherwise the failure names the first piece that does not match, as `m[2]` throws there |
| LinkHeader.ToPages | src/contentScript.js:37 | Every relation a link names is a key, and every key maps to the URL of some link naming that relation |
| LinkHeader.ToPagesLastWins | src/contentScript.js:37 | A relation maps to the URL of the last piece naming it; later duplicates overwrite earlier ones |
| LinkHeader.ParseHeaderValue | src/contentScript.js:31-40 | A present header parses iff every comma-separated piece matches the pattern, and then gives the pages object of the matched links |
| LinkHeader.ParseLinkHeader | src/contentScript.js:28-29 | A missing header gives the empty map; a present one is parsed as above |
| LinkHeader.ParseLinkHeaderLegacy | contentScript.js:14-26 | Without the null guard a missing header is a failure; a present one is parsed as in the newer variant |
| LinkHeader.ParseRendered | src/contentScript.js:25-41 | Round trip: the header a server writes for one or more well-formed links parses to the relation → URL map of those links, last duplicate winning |
| LinkHeader.EmptyHeaderFails | src/contentScript.js:28-34 | An empty (non-null) header is not caught by the null guard; its single piece `""` does not match, so the parse fails |
| Pagination.FollowNext | src/contentScript.js:63-71 | Without a `next` relation nothing more is collected; otherwise the `next` page was served and its items come first, and an empty `next` page ends the collection with nothing added |
| Pagination.GetAllResponses | src/contentScript.js:59-76 | A successful result begins with the first page's items, and the first URL was served |
| Pagination.GetAllResponsesLoop | src/contentScript.js:60-72 | The source's `while ("next" in links)` loop computes exactly the recursive definition |
| Pagination.StopsWithoutNext | src/contentScript.js:63 | When the first response has no `next` relation, the result is the first page alone |
| Pagination.StopsAtEmptyPage | src/contentScript.js:66-68 | When the `next` page is empty, the loop stops there, adds nothing and does not read that page's header |
| Pagination.NextPageFollows | src/contentScript.js:63-71 | When the `next` page is non-empty, the result is this page's items followed by everything collected from that page |
| Pagination.ChainCollected | src/contentScript.js:59-76 | On a chain of pages linked by `next`, the result is every page's items, in fetch order, with in-page order kept |
| Pagination.ChainNeedsEveryPage | src/contentScript.js:63-71 | Every page of such a chain is requested: with fewer follow-up requests allowed the collection cannot complete |
| Pagination.GetAllResponsesFuel | src/contentScript.js:63-71 | Once the collection completes, allowing more follow-up requests does not change the result |
| Canvas.CoursesUrlsDistinct | src/contentScript.js:164 | The courses URL names its student: different students' course lists are requested from different URLs |
| Canvas.AssignmentsUrlsDistinct | src/contentScript.js:89-90 | The assignments URL names its course: different courses are requested from different URLs |
| Canvas.SubmissionUrlsDistinct | src/contentScript.js:101-102 | The submission URL names its assignment: different assignments of a course are requested from different URLs, so each gets its own submission |
| Canvas.FilterInactiveClasses | src/contentScript.js:48-50 | Exactly the courses without `access_restricted_by_date`, each as often as given, in the original order |
| Assignments.OpenAssignments | src/contentScript.js:94-96 | Exactly the assignments with a due date, `now < due_at` and `now > unlock_at` (null unlock is epoch 0), in order |
| Assignments.AttachSubmissions | src/contentScript.js:98-105 | Succeeds iff every open assignment's submission URL is served; then assignment i is kept in place, with exactly its own submission attached |
| Assignments.AttachKeepsWindow | src/contentScript.js:98-105 | Attaching a submission does not change whether an assignment is open |
| Assignments.UnsubmittedAssignments | src/contentScript.js:106-109 | Exactly the assignments whose submission's `workflow_state` is `"unsubmitted"`, in order |
| Assignments.SortByDue | src/contentScript.js:111 | The sorted list is a permutation of its input, non-decreasing by due time |
| Assignments.ListedAreOpenUnsubmitted | src/contentScript.js:106-111 | Filtering and sorting keep only open, unsubmitted assignments |
| Assignments.AssignmentsForCourse | src/contentScript.js:87-112 | A course's list is sorted by due time, and every entry is open and unsubmitted |
| Assignments.CourseListContents | src/contentScript.js:87-112 | An assignment is on the list iff it is a fetched assignment that is open, with its own submission attached, and that submission is unsubmitted |
| Clock.PadMinutes | src/contentScript.js:146-149 | The minutes always print as two digits that read back as the minutes, with a leading `0` exactly below 10 |
| Clock.DisplayHourAsWritten | src/contentScript.js:139-145 | As written: hours 0-12 print unchanged, and hours 13-23 print as hour - 12 |
| Clock.AsWrittenShows | src/contentScript.js:138-150 | The printed text reads back as: the hour as above, the minutes, and PM exactly when hour >= 12 |
| Clock.FormatAsWritten | src/contentScript.js:138-150 | The text a row prints reads back as exactly the wall time it shows, so no two times of day print alike |
| Clock.MidnightAsWritten | src/contentScript.js:141-145 | As written, 00:30 prints as `0:30 AM`, an hour outside 1-12 |
| Clock.DisplayHour | src/contentScript.js:139-145 | Corrected: the printed hour is in 1-12 and agrees with the hour modulo 12 |
| Clock.FormatClock | src/contentScript.js:138-150 | Corrected clock: the text shows an hour in 1-12 that agrees with the hour modulo 12, the minutes, and PM exactly from noon on |
| Clock.PaddedHourUnread | src/contentScript.js:150 | `${hour}` is not padded: a zero-padded hour such as `00:30 AM` or `09:05 PM` is not read as a printed time, so the rows' read-back clauses pin the unpadded text |
| Clock.ParseRender | src/contentScript.js:150 | The `h:mm AM/PM` text can be read back into hour, minutes and period |
| Clock.ClockRoundTrip | src/contentScript.js:138-150 | Corrected clock: the printed time determines the time of day, so no two times print alike |
| Clock.AfternoonExample | src/contentScript.js:138-150 | 13:05 prints as `1:05 PM` |
| Clock.MidnightExample | src/contentScript.js:138-150 | Corrected clock: 00:30 prints as `12:30 AM` |
| Sidebar.ObserveeTargets | src/contentScript.js:265-268 | One target per observee, in list order, for that observee's id and labelled `name + "'s"` |
| Sidebar.Targets | src/contentScript.js:263-274 | With observees, one target per observee as above; with none, exactly one target: `self`, labelled `My` |
| Sidebar.SelfShownIffNoObservees | src/contentScript.js:263-274 | The signed-in user's own work is fetched iff there are no observees, and then it is the only panel |
| Sidebar.RenderRows | src/contentScript.js:117-156 | One row per assignment, in order, with its name, link and due time; each row's clock text reads back as that due time, and shows the hour as the code prints it: 0-12 unchanged (`0:30 AM` for 00:30), 13-23 less twelve, `PM` from noon on |
| Sidebar.CourseSection | src/contentScript.js:180-200 | A section links to `/courses/<id>`; it is visible iff it has rows, iff the course pipeline produced a non-empty list; its rows are in due order |
| Sidebar.SectionShownIffOutstanding | src/contentScript.js:195-198 | A section is shown iff some fetched assignment of the course is open and has an unsubmitted submission |
| Sidebar.CourseSections | src/contentScript.js:168-202 | One section per course, in course order |
| Sidebar.StudentPanel | src/contentScript.js:237-244 | Heading `<label> Unsubmitted Assignments`; a failed course fetch leaves no sections; otherwise one section per accessible course, in order |
| Sidebar.Panels | src/contentScript.js:265-273 | One panel per target, in target order |
| Sidebar.PopulateSidebar | src/contentScript.js:246-276 | Fails iff the observee list cannot be fetched; otherwise one panel per target of that list |
| Legacy.UnlockedAssignments | contentScript.js:82-84 | Exactly the assignments with `now > unlock_at`, in order; the due date is not consulted |
| Legacy.OpenAreUnlocked | contentScript.js:82-84 | What the newer window keeps is a subsequence of what the older filter keeps |
| Legacy.UnlockedKeepsPastDue | contentScript.js:83 | An unlocked assignment that is undated or past due passes the older filter but not the newer one |
| Legacy.Continuation | contentScript.js:86-88 | The walk stops iff `current` and `last` are both absent or both present and equal; otherwise it requests the `next` URL, or the text `undefined` when there is none |
| Legacy.ContinuationFollowsNext | contentScript.js:86-88 | On headers that carry `current` and `last`, and `next` exactly before the last page, the older rule requests a page iff `next` exists, and requests the `next` URL |
| Legacy.ContinuationWithoutLast | contentScript.js:137-139 | Without a `last` relation the last page still triggers a request, to the URL `undefined` |
| Legacy.ContinuationIgnoresNext | contentScript.js:86 | Without `current` and `last` the walk stops even though a `next` page exists |
| Legacy.Walk | contentScript.js:73-96 | The walk handles no page iff the first response is missing or its header does not parse; otherwise the first page handled is the first response, and at most one page per allowed follow-up request follows |
| Legacy.WalkChain | contentScript.js:73-96 | On a Canvas page chain the callback walk handles every page, in order, given enough follow-up requests |
| Legacy.WalkAgreesWithNewer | contentScript.js:123-146 | On a Canvas chain whose pages after the first are non-empty and whose last page names no `next`, the older walk with its unguarded parser and `getAllResponses` with the null-guarded one collect the same items in the same order |
| Legacy.LegacyReadsCanvasPage | contentScript.js:14-26 | A page whose relations name `current` has a header, so the unguarded parser reads the same relations from it as the guarded one |
| Legacy.PerPageFilterIsWholeFilter | contentScript.js:135 | Filtering courses page by page gives the same courses, in order, as filtering the whole collection |
| Legacy.Update | contentScript.js:49-58 | An unsubmitted reply appends its assignment and reveals the container; any other reply leaves the container as it was |
| Legacy.UpdateAll | contentScript.js:49-58 | Exactly the assignments with an unsubmitted reply are appended, in reply order; the container ends visible iff it was visible or some reply was unsubmitted |
| Legacy.LegacyTargets | contentScript.js:192-202 | With observees, one fetch per observee id, in order; with none, exactly one fetch, for `self` |
| Legacy.SameStudentsAsNewer | contentScript.js:192-202 | For the same observee list, the older choice and the newer one give the same students, in the same order: each observee id, or `self` alone |
| Legacy.PopulateStudents | contentScript.js:186-202 | The observee reply's header is parsed first with the unguarded parser: without a header, or with an unmatched piece, nobody is fetched for; otherwise the students are chosen as above |
| Legacy.PopulateAgreesWithNewer | contentScript.js:186-202 | Once the older variant gets past the observee reply's header, it fetches for the same students, in the same order, as the newer one |

## Left out

- DOM construction (`createElement`, `innerHTML`, `style`, `appendChild`) is represented only by the data it shows: panels, sections and rows.
- Network and asynchrony: `fetch`, `XMLHttpRequest`, promises and callbacks. Servers are pure URL → response maps. The per-course pipelines and submission requests are evaluated one after another, and the order of completion is not modelled.
- `JSON.parse`: responses arrive as decoded records, and the guard strip is modelled on the raw text only.
- `Date`: timestamps are integers, and `Date.now()` is one fixed `now` for every comparison. `getHours`/`getMinutes` in the local time zone are a given `clock` function. `toDateString` is not modelled.
- Load polling (`waitForLoad`, src/contentScript.js:211-229 and contentScript.js:156-164) is timer behaviour.
- `DEBUG` and `BASE_URL` are configuration: the API base is a parameter. The older variant's URLs, built on a fixed host, are not modelled; its page walks start from a given URL.
- The undeclared globals `links`, `assignmentsLeft` and `validCourses`, and the three-argument recursive call at contentScript.js:87, are scoping and arity slips. They are not modelled as behaviour.
- Pagination.GetAllResponses: the source bounds the `next` chain by nothing. The model allows `fuel` follow-up requests and fails with `PageLimit` beyond that, so a cyclic chain is not modelled as non-termination.
- Legacy.WalkChain: the callback walk stops silently when its fuel runs out; the source would keep requesting.
- Assignments.SortByDue: the insertion sort keeps assignments due at the same instant in fetched order, as the stable `Array.prototype.sort` of ECMAScript 2019 does, but the contract states only sortedness and permutation.
- Assignments.AttachSubmissions: the source fetches each submission with `getAllResponses`. The model looks the submission up as a single resource and does not follow `Link` headers on submission responses.
- The empty-page test `Object.keys(newResults).length == 0` is modelled as an empty item list.
- Keys such as `__proto__` have special meaning on a plain JavaScript object; the pages object is modelled as a plain map.
- Nothing stops the older variant from requesting the same URL twice: its `current != last` walk is modelled as it is, under the fuel bound.

## Findings

| source | as written | input that shows it | evidently intended | confidence | as-written member | corrected member |
|---|---|---|---|---|---|---|
| src/contentScript.js:141-145 | the hour is reduced only when it is above 12, so hour 0 is printed unchanged | a due time at 00:30 local time prints as `0:30 AM` | a 12-hour clock: 0 prints as 12 (`12:30 AM`) | high; not executed | Clock.MidnightAsWritten | Clock.DisplayHour |

The sidebar rows (`Sidebar.RenderRow`) print the time as the code does, with `Clock.FormatAsWritten`; `Clock.FormatClock` is the corrected clock.

=== FILE: assignments.dfy ===
/** `getAllAssignmentsForCourse`: fetch a course's assignments for one
    student, keep those open right now, attach each one's submission, keep
    the unsubmitted ones and order them by due time. `Date.now()` is the fixed
    parameter `now`. */
module Assignments {
  import opened Outcomes
  import opened Sequences
  import opened Canvas
  import Pagination
  import LinkHeader

  /** The open-work window: a due date exists, it is still ahead, and the
      unlock time has passed (both comparisons strict). */
  predicate IsOpen(a: Assignment, now: int) {
    a.dueAt.Some? && now < a.dueAt.value && now > TimeValue(a.unlockAt)
  }

  /** The eligibility filter: exactly the open assignments, in order. */
  function OpenAssignments(assignments: seq<Assignment>, now: int): (r: seq<Assignment>)
    ensures IsSubsequence(r, assignments)
    ensures forall i :: 0 <= i < |r| ==> IsOpen(r[i], now)
    ensures forall a :: multiset(r)[a] == if IsOpen(a, now) then multiset(assignments)[a] else 0
  {
    Filter(assignments, a => IsOpen(a, now))
  }

  /** The submission URL of each assignment is requested in turn and the
      decoded submission stored on it; the first request that fails ends the
      course's pipeline. */
  function AttachSubmissions(assignments: seq<Assignment>, base: string, student: StudentId, course: Course,
                             submissions: map<string, Submission>): (r: Result<seq<Assignment>>)
    ensures r.Success? <==>
      forall i :: 0 <= i < |assignments| ==> SubmissionUrl(base, student, course, assignments[i]) in submissions
    ensures r.Success? ==> |r.value| == |assignments|
    ensures r.Success? ==> forall i :: 0 <= i < |assignments| ==>
      r.value[i] == assignments[i].(submission := Some(submissions[SubmissionUrl(base, student, course, assignments[i])]))
  {
    if |assignments| == 0 then Success([])
    else
      var url := SubmissionUrl(base, student, course, assignments[0]);
      if url !in submissions then Failure(Outcomes.RequestFailed(url))
      else
        var rest :- AttachSubmissions(assignments[1..], base, student, course, submissions);
        Success([assignments[0].(submission := Some(submissions[url]))] + rest)
  }

  /** Attaching submissions leaves the due and unlock times alone. */
  lemma AttachKeepsWindow(assignments: seq<Assignment>, base: string, student: StudentId, course: Course,
                          submissions: map<string, Submission>, now: int)
    requires forall i :: 0 <= i < |assignments| ==> IsOpen(assignments[i], now)
    requires AttachSubmissions(assignments, base, student, course, submissions).Success?
    ensures forall i :: 0 <= i < |assignments| ==>
      IsOpen(AttachSubmissions(assignments, base, student, course, submissions).value[i], now)
  {
  }

  predicate IsUnsubmitted(a: Assignment) {
    a.submission.Some? && a.submission.value.workflowState == "unsubmitted"
  }

  /** Exactly the assignments whose attached submission is in the state
      `"unsubmitted"`, in order. */
  function UnsubmittedAssignments(assignments: seq<Assignment>): (r: seq<Assignment>)
    ensures IsSubsequence(r, assignments)
    ensures forall i :: 0 <= i < |r| ==> IsUnsubmitted(r[i])
    ensures forall a :: multiset(r)[a] == if IsUnsubmitted(a) then multiset(assignments)[a] else 0
  {
    Filter(assignments, IsUnsubmitted)
  }

  /** The sort key of the comparator `new Date(a.due_at) - new Date(b.due_at)`. */
  function DueTime(a: Assignment): int {
    TimeValue(a.dueAt)
  }

  /** The same assignments, non-decreasing by due time; assignments due at
      the same instant stay in the order they were fetched. */
  function SortByDue(assignments: seq<Assignment>): (r: seq<Assignment>)
    ensures SortedBy(r, DueTime)
    ensures multiset(r) == multiset(assignments)
  {
    SortBy(assignments, DueTime)
  }

  /** Filtering and sorting only drop and reorder: what comes out is open if
      what went in was, and unsubmitted. */
  lemma ListedAreOpenUnsubmitted(attached: seq<Assignment>, now: int)
    requires forall i :: 0 <= i < |attached| ==> IsOpen(attached[i], now)
    ensures var sorted := SortByDue(UnsubmittedAssignments(attached));
      forall i :: 0 <= i < |sorted| ==> IsOpen(sorted[i], now) && IsUnsubmitted(sorted[i])
  {
    var unsubmitted := UnsubmittedAssignments(attached);
    var sorted := SortByDue(unsubmitted);
    forall i | 0 <= i < |sorted|
      ensures IsOpen(sorted[i], now) && IsUnsubmitted(sorted[i])
    {
      var x := sorted[i];
      assert x in multiset(sorted);
      assert multiset(unsubmitted)[x] > 0;
      assert multiset(attached)[x] > 0;
      assert x in attached;
    }
  }

  /** The whole per-course pipeline. A failure anywhere leaves the course
      without a list. */
  function AssignmentsForCourse(api: Api, base: string, student: StudentId, course: Course, now: int, fuel: nat)
    : (r: Result<seq<Assignment>>)
    ensures r.Success? ==> SortedBy(r.value, DueTime)
    ensures r.Success? ==> forall i :: 0 <= i < |r.value| ==> IsOpen(r.value[i], now) && IsUnsubmitted(r.value[i])
  {
    var all :- Pagination.GetAllResponses(api.assignments, LinkHeader.ParseLinkHeader, AssignmentsUrl(base, student, course), fuel);
    var open := OpenAssignments(all, now);
    var attached :- AttachSubmissions(open, base, student, course, api.submissions);
    var unsubmitted := UnsubmittedAssignments(attached);
    var sorted := SortByDue(unsubmitted);
    AttachKeepsWindow(open, base, student, course, api.submissions, now);
    ListedAreOpenUnsubmitted(attached, now);
    Success(sorted)
  }

  /** `a` is what the pipeline makes of the fetched assignment `b`: `b` is
      open, its submission could be fetched and is attached to it, and that
      submission is unsubmitted. */
  predicate Qualifies(a: Assignment, b: Assignment, now: int, base: string, student: StudentId, course: Course,
                      submissions: map<string, Submission>) {
    && IsOpen(b, now)
    && SubmissionUrl(base, student, course, b) in submissions
    && a == b.(submission := Some(submissions[SubmissionUrl(base, student, course, b)]))
    && IsUnsubmitted(a)
  }

  /** The list the pipeline builds from the fetched assignments `all`. */
  function Listed(all: seq<Assignment>, now: int, base: string, student: StudentId, course: Course,
                  submissions: map<string, Submission>): seq<Assignment>
    requires AttachSubmissions(OpenAssignments(all, now), base, student, course, submissions).Success?
  {
    SortByDue(UnsubmittedAssignments(AttachSubmissions(OpenAssignments(all, now), base, student, course, submissions).value))
  }

  lemma ListedQualifies(all: seq<Assignment>, now: int, base: string, student: StudentId, course: Course,
                        submissions: map<string, Submission>, a: Assignment)
    requires AttachSubmissions(OpenAssignments(all, now), base, student, course, submissions).Success?
    requires a in Listed(all, now, base, student, course, submissions)
    ensures exists b :: b in all && Qualifies(a, b, now, base, student, course, submissions)
  {
    var open := OpenAssignments(all, now);
    var attached := AttachSubmissions(open, base, student, course, submissions).value;
    var unsubmitted := UnsubmittedAssignments(attached);
    assert a in multiset(SortByDue(unsubmitted));
    assert multiset(unsubmitted)[a] > 0;
    assert multiset(attached)[a] > 0;
    var k :| 0 <= k < |attached| && attached[k] == a;
    var b := open[k];
    assert multiset(open)[b] > 0;
    assert multiset(all)[b] > 0;
    assert b in all && Qualifies(a, b, now, base, student, course, submissions);
  }

  lemma QualifiedIsListed(all: seq<Assignment>, now: int, base: string, student: StudentId, course: Course,
                          submissions: map<string, Submission>, a: Assignment, b: Assignment)
    requires AttachSubmissions(OpenAssignments(all, now), base, student, course, submissions).Success?
    requires b in all && Qualifies(a, b, now, base, student, course, submissions)
    ensures a in Listed(all, now, base, student, course, submissions)
  {
    var open := OpenAssignments(all, now);
    var attached := AttachSubmissions(open, base, student, course, submissions).value;
    var unsubmitted := UnsubmittedAssignments(attached);
    assert multiset(all)[b] > 0;
    assert multiset(open)[b] > 0;
    var k :| 0 <= k < |open| && open[k] == b;
    assert attached[k] == a;
    assert multiset(attached)[a] > 0;
    assert multiset(unsubmitted)[a] > 0;
    assert a in multiset(SortByDue(unsubmitted));
  }

  /** Once the fetch has produced `all`, the pipeline succeeds iff every open
      assignment's submission can be fetched, and then yields `Listed`. */
  lemma CourseIsListed(api: Api, base: string, student: StudentId, course: Course, now: int, fuel: nat,
                       all: seq<Assignment>)
    requires Pagination.GetAllResponses(api.assignments, LinkHeader.ParseLinkHeader, AssignmentsUrl(base, student, course), fuel)
             == Success(all)
    ensures AssignmentsForCourse(api, base, student, course, now, fuel).Success?
            <==> AttachSubmissions(OpenAssignments(all, now), base, student, course, api.submissions).Success?
    ensures AssignmentsForCourse(api, base, student, course, now, fuel).Success? ==>
            AssignmentsForCourse(api, base, student, course, now, fuel).value == Listed(all, now, base, student, course, api.submissions)
  {
  }

  /** An assignment is listed iff it is what the pipeline makes of a fetched
      assignment that qualifies. */
  lemma ListedContents(all: seq<Assignment>, now: int, base: string, student: StudentId, course: Course,
                       submissions: map<string, Submission>)
    requires AttachSubmissions(OpenAssignments(all, now), base, student, course, submissions).Success?
    ensures forall a :: a in Listed(all, now, base, student, course, submissions) <==>
                        exists b :: b in all && Qualifies(a, b, now, base, student, course, submissions)
  {
    forall a
      ensures a in Listed(all, now, base, student, course, submissions) <==>
              exists b :: b in all && Qualifies(a, b, now, base, student, course, submissions)
    {
      if a in Listed(all, now, base, student, course, submissions) {
        ListedQualifies(all, now, base, student, course, submissions, a);
      }
      if exists b :: b in all && Qualifies(a, b, now, base, student, course, submissions) {
        var b :| b in all && Qualifies(a, b, now, base, student, course, submissions);
        QualifiedIsListed(all, now, base, student, course, submissions, a, b);
      }
    }
  }

  /** What a course's list holds: an assignment is listed iff it is what the
      pipeline makes of one of the course's fetched assignments that is open
      and whose attached submission is unsubmitted. */
  lemma CourseListContents(api: Api, base: string, student: StudentId, course: Course, now: int, fuel: nat,
                           all: seq<Assignment>, listed: seq<Assignment>)
    requires Pagination.GetAllResponses(api.assignments, LinkHeader.ParseLinkHeader, AssignmentsUrl(base, student, course), fuel)
             == Success(all)
    requires AssignmentsForCourse(api, base, student, course, now, fuel) == Success(listed)
    ensures forall a :: a in listed <==> exists b :: b in all && Qualifies(a, b, now, base, student, course, api.submissions)
  {
    CourseIsListed(api, base, student, course, now, fuel, all);
    ListedContents(all, now, base, student, course, api.submissions);
  }
}

=== FILE: canvas.dfy ===
/** The records the extension reads from the Canvas REST API, the endpoints
    it requests, and the course filter (`filterInactiveClasses`). JSON
    decoding is not modelled: responses arrive as these records. */
module Canvas {
  import opened Outcomes
  import opened Text
  import opened Sequences
  import Pagination

  /** Whose work is fetched: the signed-in user, `"self"` in the API, or an
      observee by numeric id. */
  datatype StudentId = Self | User(id: nat)

  datatype Observee = Observee(id: nat, name: string)

  /** A course. `accessRestricted` records whether the JSON object has the
      key `access_restricted_by_date` at all: the filter tests the key with
      `in`, whatever its value. */
  datatype Course = Course(id: nat, name: string, accessRestricted: bool)

  datatype Submission = Submission(workflowState: string)

  /** An assignment. Timestamps are milliseconds since the epoch, `None` for
      JSON null; `submission` is attached by the course pipeline. */
  datatype Assignment = Assignment(
    id: nat,
    courseId: nat,
    name: string,
    htmlUrl: string,
    dueAt: Option<int>,
    unlockAt: Option<int>,
    submission: Option<Submission>)

  /** Everything the API answers: observee lists and submissions are single
      resources, course and assignment lists are paged. */
  datatype Api = Api(
    observees: map<string, seq<Observee>>,
    courses: Pagination.Server<Course>,
    assignments: Pagination.Server<Assignment>,
    submissions: map<string, Submission>)

  /** `new Date(t).getTime()`: a null timestamp is the epoch. */
  function TimeValue(t: Option<int>): int {
    match t
    case None => 0
    case Some(ms) => ms
  }

  function IdText(student: StudentId): string {
    match student
    case Self => "self"
    case User(id) => NatToString(id)
  }

  function ObserveesUrl(base: string): string {
    base + "/users/self/observees"
  }

  function CoursesUrl(base: string, student: StudentId): string {
    base + "/users/" + IdText(student) + "/courses?page=1&per_page=10"
  }

  function AssignmentsUrl(base: string, student: StudentId, course: Course): string {
    base + "/users/" + IdText(student) + "/courses/" + NatToString(course.id) + "/assignments?page=1&per_page=10"
  }

  function SubmissionUrl(base: string, student: StudentId, course: Course, a: Assignment): string {
    base + "/courses/" + NatToString(course.id) + "/assignments/" + NatToString(a.id) + "/submissions/" + IdText(student)
  }

  /** Different students have different path segments. */
  lemma IdTextDelimited(s1: StudentId, s2: StudentId, a: string)
    requires s1 != s2 && |a| > 0 && a[0] == '/'
    ensures IdText(s1) + a != IdText(s2) + a
  {
    match (s1, s2)
    case (User(i), User(j)) => NatDelimited(i, j, a);
    case (Self, User(j)) =>
      DigitAt(NatToString(j), a, 0);
      assert ("self" + a)[0] == 's';
    case (User(i), Self) =>
      DigitAt(NatToString(i), a, 0);
      assert ("self" + a)[0] == 's';
  }

  /** Each student's course list is requested from its own URL. */
  lemma CoursesUrlsDistinct(base: string, s1: StudentId, s2: StudentId)
    requires s1 != s2
    ensures CoursesUrl(base, s1) != CoursesUrl(base, s2)
  {
    var p, q := base + "/users/", "/courses?page=1&per_page=10";
    AppendAssoc(p, IdText(s1), q);
    AppendAssoc(p, IdText(s2), q);
    IdTextDelimited(s1, s2, q);
    if CoursesUrl(base, s1) == CoursesUrl(base, s2) {
      CancelPrefix(p, IdText(s1) + q, IdText(s2) + q);
      assert false;
    }
  }

  /** Each course's assignment list is requested from its own URL. */
  lemma AssignmentsUrlsDistinct(base: string, student: StudentId, c1: Course, c2: Course)
    requires c1.id != c2.id
    ensures AssignmentsUrl(base, student, c1) != AssignmentsUrl(base, student, c2)
  {
    var p, q := base + "/users/" + IdText(student) + "/courses/", "/assignments?page=1&per_page=10";
    AppendAssoc(p, NatToString(c1.id), q);
    AppendAssoc(p, NatToString(c2.id), q);
    NatDelimited(c1.id, c2.id, q);
    if AssignmentsUrl(base, student, c1) == AssignmentsUrl(base, student, c2) {
      CancelPrefix(p, NatToString(c1.id) + q, NatToString(c2.id) + q);
      assert false;
    }
  }

  /** Each assignment's submission is requested from its own URL, so every
      assignment of a course is paired with its own submission. */
  lemma SubmissionUrlsDistinct(base: string, student: StudentId, course: Course, a1: Assignment, a2: Assignment)
    requires a1.id != a2.id
    ensures SubmissionUrl(base, student, course, a1) != SubmissionUrl(base, student, course, a2)
  {
    var p, q := base + "/courses/" + NatToString(course.id) + "/assignments/", "/submissions/" + IdText(student);
    AppendAssoc(p + NatToString(a1.id), "/submissions/", IdText(student));
    AppendAssoc(p, NatToString(a1.id), q);
    AppendAssoc(p + NatToString(a2.id), "/submissions/", IdText(student));
    AppendAssoc(p, NatToString(a2.id), q);
    NatDelimited(a1.id, a2.id, q);
    if SubmissionUrl(base, student, course, a1) == SubmissionUrl(base, student, course, a2) {
      CancelPrefix(p, NatToString(a1.id) + q, NatToString(a2.id) + q);
      assert false;
    }
  }

  predicate IsActive(c: Course) {
    !c.accessRestricted
  }

  /** `filterInactiveClasses`: exactly the courses without the
      access-restriction key, each as often as given, in the original order. */
  function FilterInactiveClasses(courses: seq<Course>): (r: seq<Course>)
    ensures IsSubsequence(r, courses)
    ensures forall i :: 0 <= i < |r| ==> !r[i].accessRestricted
    ensures forall c :: multiset(r)[c] == if c.accessRestricted then 0 else multiset(courses)[c]
  {
    Filter(courses, IsActive)
  }
}

=== FILE: clock.dfy ===
/** The `<h>:<mm> <AM|PM>` part of an assignment row's due line
    (`renderUnsubmittedAssignmentList`). The local-time hour and minute of the
    due date are given; `toDateString` and the time zone are not modelled. */
module Clock {
  import opened Outcomes
  import opened Text

  /** `due.getHours()` and `due.getMinutes()`. */
  datatype WallTime = WallTime(hour: nat, minute: nat)

  predicate Valid(w: WallTime) {
    w.hour < 24 && w.minute < 60
  }

  /** What a rendered time shows: the printed hour, the minutes, and whether
      the period is PM. */
  datatype Face = Face(hour: nat, minute: nat, pm: bool)

  /** `minutes < 10 ? "0" + minutes : minutes`: always two digits that read
      back as the minutes. */
  function PadMinutes(minute: nat): (r: string)
    requires minute < 60
    ensures |r| == 2 && AllDigits(r) && ParseNat(r) == minute
    ensures minute < 10 <==> r[0] == '0'
  {
    if minute < 10 then
      var r := "0" + NatToString(minute);
      assert r[1..] == NatToString(minute) && r[..1] == "0";
      r
    else
      var r := NatToString(minute);
      assert r == NatToString(minute / 10) + [DigitChar(minute % 10)];
      r
  }

  function PeriodText(pm: bool): string {
    if pm then "PM" else "AM"
  }

  /** The text a face is printed as: `${hour}:${minutes} ${period}`. */
  function Render(f: Face): string
    requires f.minute < 60
  {
    NatToString(f.hour) + ":" + PadMinutes(f.minute) + " " + PeriodText(f.pm)
  }

  /** Reads a printed time back; `None` for text of any other shape, an hour
      written with a leading zero included. */
  function ParseFace(s: string): Option<Face> {
    match IndexOf(s, ":", 0)
    case None => None
    case Some(i) =>
      var hourText, rest := s[..i], s[i + 1..];
      if 0 < |hourText| && AllDigits(hourText) && (|hourText| == 1 || hourText[0] != '0') && |rest| == 5 && AllDigits(rest[..2]) && rest[2] == ' '
         && (rest[3..] == "AM" || rest[3..] == "PM")
      then Some(Face(ParseNat(hourText), ParseNat(rest[..2]), rest[3..] == "PM"))
      else None
  }

  /** `${hour}` has no padding, so a zero-padded hour is not read as a
      printed time. */
  lemma PaddedHourUnread()
    ensures ParseFace("00:30 AM").None? && ParseFace("09:05 PM").None?
  {
    FirstColon("00", "30 AM");
    FirstColon("09", "05 PM");
    assert "00:30 AM" == "00" + ":" + "30 AM";
    assert "09:05 PM" == "09" + ":" + "05 PM";
  }

  /** Printing then reading gives the face back. */
  lemma ParseRender(f: Face)
    requires f.minute < 60
    ensures ParseFace(Render(f)) == Some(f)
  {
    var hourText, pad, period := NatToString(f.hour), PadMinutes(f.minute), PeriodText(f.pm);
    var tail := pad + " " + period;
    assert Render(f) == hourText + ":" + tail;
    ColonAfterHour(f);
    Pieces(hourText, tail);
    Pieces(pad, period);
  }

  /** The parts around a one-character separator can be cut back out. */
  lemma Pieces(a: string, b: string)
    ensures var s := a + ":" + b; s[..|a|] == a && s[|a| + 1..] == b
    ensures var s := a + " " + b; s[..|a|] == a && s[|a|] == ' ' && s[|a| + 1..] == b
  {
  }

  /** The first `:` of a printed time is the one after the hour digits. */
  lemma ColonAfterHour(f: Face)
    requires f.minute < 60
    ensures IndexOf(Render(f), ":", 0) == Some(|NatToString(f.hour)|)
  {
    var tail := PadMinutes(f.minute) + " " + PeriodText(f.pm);
    assert Render(f) == NatToString(f.hour) + ":" + tail;
    FirstColon(NatToString(f.hour), tail);
  }

  lemma FirstColon(digits: string, tail: string)
    requires AllDigits(digits)
    ensures IndexOf(digits + ":" + tail, ":", 0) == Some(|digits|)
  {
    var s, i := digits + ":" + tail, |digits|;
    assert s[i..i + 1] == [':'];
    forall j | 0 <= j < i
      ensures !OccursAt(s, ":", j)
    {
      assert s[j..j + 1] == [digits[j]];
    }
    var r := IndexOf(s, ":", 0);
    assert OccursAt(s, ":", i);
    assert r.None? ==> !OccursAt(s, ":", i);
    assert r.value >= i;
    assert r.value <= i;
  }

  /** The hour the source prints: `hour % 12` above noon, otherwise the hour
      itself, so midnight prints as 0. */
  function DisplayHourAsWritten(hour: nat): (h: nat)
    requires hour < 24
    ensures hour <= 12 ==> h == hour
    ensures hour > 12 ==> h + 12 == hour
  {
    if hour >= 12 && hour > 12 then hour % 12 else hour
  }

  /** The due time as the source prints it. Midnight's 0 is no 12-hour
      reading, yet the text still determines the time of day: reading it
      back gives the wall time again. */
  function FormatAsWritten(w: WallTime): (r: string)
    requires Valid(w)
    ensures ParseClock(r) == Some(w)
  {
    var f := Face(DisplayHourAsWritten(w.hour), w.minute, w.hour >= 12);
    ParseRender(f);
    Render(f)
  }

  /** What the printed text shows, read back: PM exactly from noon on, hours
      13-23 as hour - 12, 12 as 12, 0-11 unchanged, and the minutes. */
  lemma AsWrittenShows(w: WallTime)
    requires Valid(w)
    ensures ParseFace(FormatAsWritten(w)) == Some(Face(if w.hour > 12 then w.hour - 12 else w.hour, w.minute, w.hour >= 12))
  {
    ParseRender(Face(DisplayHourAsWritten(w.hour), w.minute, w.hour >= 12));
  }

  /** Midnight and half past: the source prints `0:30 AM`, an hour no
      12-hour clock shows. */
  lemma MidnightAsWritten()
    ensures FormatAsWritten(WallTime(0, 30)) == "0:30 AM"
    ensures !(1 <= DisplayHourAsWritten(0) <= 12)
  {
    assert NatToString(0) == "0";
    assert NatToString(30) == "30" by {
      assert NatToString(3) == "3";
    }
  }

  /** The 12-hour clock the row is meant to show: 0 and 12 print as 12. */
  function DisplayHour(hour: nat): (h: nat)
    requires hour < 24
    ensures 1 <= h <= 12
    ensures h % 12 == hour % 12
  {
    if hour % 12 == 0 then 12 else hour % 12
  }

  /** The due time on a 12-hour clock: the text reads as an hour from 1 to
      12 that agrees with the time of day modulo 12, its minutes, and PM
      exactly from noon on. */
  function FormatClock(w: WallTime): (r: string)
    requires Valid(w)
    ensures ParseFace(r).Some?
    ensures 1 <= ParseFace(r).value.hour <= 12 && ParseFace(r).value.hour % 12 == w.hour % 12
    ensures ParseFace(r).value.minute == w.minute && (ParseFace(r).value.pm <==> w.hour >= 12)
  {
    var f := Face(DisplayHour(w.hour), w.minute, w.hour >= 12);
    ParseRender(f);
    Render(f)
  }

  /** The 24-hour time a 12-hour face stands for. */
  function To24(f: Face): nat {
    if f.pm then (if f.hour == 12 then 12 else f.hour + 12)
    else (if f.hour == 12 then 0 else f.hour)
  }

  /** Reads a time printed by `FormatClock` back into a wall time. */
  function ParseClock(s: string): Option<WallTime> {
    match ParseFace(s)
    case None => None
    case Some(f) => Some(WallTime(To24(f), f.minute))
  }

  /** Round trip: the printed 12-hour time determines the wall time, so no two
      times of day print alike. */
  lemma ClockRoundTrip(w: WallTime)
    requires Valid(w)
    ensures ParseClock(FormatClock(w)) == Some(w)
  {
    ParseRender(Face(DisplayHour(w.hour), w.minute, w.hour >= 12));
    HourRoundTrip(w.hour);
  }

  /** The 12-hour reading and the period determine the hour. */
  lemma HourRoundTrip(hour: nat)
    requires hour < 24
    ensures To24(Face(DisplayHour(hour), 0, hour >= 12)) == hour
  {
  }

  /** Early afternoon: 13:05 reads `1:05 PM`. */
  lemma AfternoonExample()
    ensures FormatClock(WallTime(13, 5)) == "1:05 PM"
  {
    assert DisplayHour(13) == 1;
    assert NatToString(1) == "1";
    assert PadMinutes(5) == "05" by {
      assert NatToString(5) == "5";
    }
    assert Render(Face(1, 5, true)) == "1" + ":" + "05" + " " + "PM";
  }

  /** Half past midnight: 00:30 reads `12:30 AM`. */
  lemma MidnightExample()
    ensures FormatClock(WallTime(0, 30)) == "12:30 AM"
  {
    assert DisplayHour(0) == 12;
    assert NatToString(12) == "12" by {
      assert NatToString(1) == "1";
    }
    assert PadMinutes(30) == "30" by {
      assert NatToString(3) == "3";
    }
    assert Render(Face(12, 30, false)) == "12" + ":" + "30" + " " + "AM";
  }
}

=== FILE: guard.dfy ===
/** The response decoder's textual step (`unpackAPIResponse`): Canvas prefixes
    every JSON body with `while(1);` so that the body cannot be executed as a
    script; the extension removes it with `String.prototype.replace`, which,
    given a string pattern, replaces only the FIRST occurrence. `JSON.parse`
    itself is not part of this model. */
module Guard {
  import opened Outcomes
  import opened Text

  const GuardToken: string := "while(1);"

  /** `s.replace(GuardToken, '')`. */
  function StripGuard(s: string): (r: string)
    ensures (forall j :: !OccursAt(s, GuardToken, j)) ==> r == s
    ensures forall i :: OccursAt(s, GuardToken, i) && (forall j :: 0 <= j < i ==> !OccursAt(s, GuardToken, j))
                        ==> r == s[..i] + s[i + |GuardToken|..]
  {
    match IndexOf(s, GuardToken, 0)
    case None => s
    case Some(i) => s[..i] + s[i + |GuardToken|..]
  }

  /** Stripping removes exactly the prefix the platform prepends. */
  lemma StripPrefixed(body: string)
    ensures StripGuard(GuardToken + body) == body
  {
    var s := GuardToken + body;
    assert OccursAt(s, GuardToken, 0);
    assert s[|GuardToken|..] == body;
  }

  /** Only the first token goes: a doubled prefix leaves one behind. */
  lemma StripRemovesOnlyFirst(body: string)
    ensures StripGuard(GuardToken + GuardToken + body) == GuardToken + body
  {
    var s := GuardToken + GuardToken + body;
    assert OccursAt(s, GuardToken, 0);
    assert s[|GuardToken|..] == GuardToken + body;
  }
}

=== FILE: legacy.dfy ===
/** The older callback-driven variant of the extension (`contentScript.js` at
    the repository root). It shares the guard stripping, the segment parser
    and the course filter with the newer one, but parses a missing `Link`
    header as an error, keeps every unlocked assignment, decides whether to
    request another page by comparing the `current` and `last` relations,
    and lists an assignment as soon as its own submission reply says it is
    unsubmitted. Each page's reply is handled on its own. */
module Legacy {
  import opened Outcomes
  import opened Sequences
  import opened Canvas
  import opened Assignments
  import Pagination
  import LinkHeader
  import Sidebar

  /** The unlock-only window: `now > unlock_at`, the due date unchecked. */
  predicate IsUnlocked(a: Assignment, now: int) {
    now > TimeValue(a.unlockAt)
  }

  /** The older eligibility filter: exactly the unlocked assignments, in order. */
  function UnlockedAssignments(assignments: seq<Assignment>, now: int): (r: seq<Assignment>)
    ensures IsSubsequence(r, assignments)
    ensures forall i :: 0 <= i < |r| ==> IsUnlocked(r[i], now)
    ensures forall a :: multiset(r)[a] == if IsUnlocked(a, now) then multiset(assignments)[a] else 0
  {
    Filter(assignments, a => IsUnlocked(a, now))
  }

  /** The newer window only narrows the older one. */
  lemma OpenAreUnlocked(assignments: seq<Assignment>, now: int)
    ensures IsSubsequence(OpenAssignments(assignments, now), UnlockedAssignments(assignments, now))
  {
    FilterStronger(assignments, a => IsOpen(a, now), a => IsUnlocked(a, now));
  }

  /** Undated and past-due work still passes the older filter, though the
      newer one drops it. */
  lemma UnlockedKeepsPastDue(a: Assignment, now: int)
    requires IsUnlocked(a, now) && (a.dueAt.None? || a.dueAt.value <= now)
    ensures a in UnlockedAssignments([a], now)
    ensures a !in OpenAssignments([a], now)
  {
    assert multiset(UnlockedAssignments([a], now))[a] == 1;
    assert multiset(OpenAssignments([a], now))[a] == 0;
  }

  /** Reading a property of the object `parseLinkHeader` returns. */
  datatype Lookup = Undefined | Defined(url: string)

  function Get(pages: map<string, string>, rel: string): Lookup {
    if rel in pages then Defined(pages[rel]) else Undefined
  }

  /** The URL a request is sent to: an undefined value is stringified. */
  function UrlText(l: Lookup): string {
    match l
    case Undefined => "undefined"
    case Defined(u) => u
  }

  datatype Step = Stop | Request(url: string)

  /** `if (pages["current"] != pages["last"])` requesting `pages["next"]`:
      the walk stops exactly when both relations are absent or both name the
      same URL, and a request goes to the `next` URL, or to the text
      "undefined" when there is none. */
  function Continuation(pages: map<string, string>): (r: Step)
    ensures r == Stop <==> ("current" in pages <==> "last" in pages)
                           && ("current" in pages && "last" in pages ==> pages["current"] == pages["last"])
    ensures r.Request? ==> r.url == if "next" in pages then pages["next"] else "undefined"
  {
    if Get(pages, "current") != Get(pages, "last") then Request(UrlText(Get(pages, "next"))) else Stop
  }

  /** The relations Canvas sends on a page of a collection whose last page it
      names: `current` and `last`, and `next` exactly when this is not the
      last page. */
  predicate CanvasHeader(pages: map<string, string>) {
    && "current" in pages && "last" in pages
    && ("next" in pages <==> pages["current"] != pages["last"])
  }

  /** On such headers the older rule agrees with following `next`. */
  lemma ContinuationFollowsNext(pages: map<string, string>)
    requires CanvasHeader(pages)
    ensures Continuation(pages).Request? <==> "next" in pages
    ensures "next" in pages ==> Continuation(pages) == Request(pages["next"])
  {
  }

  /** Without a `last` relation every page looks unfinished: the last page
      requests the URL "undefined". */
  lemma ContinuationWithoutLast(pages: map<string, string>)
    requires "current" in pages && "last" !in pages && "next" !in pages
    ensures Continuation(pages) == Request("undefined")
  {
  }

  /** Without `current` and `last` the walk stops even when a `next` page
      exists. */
  lemma ContinuationIgnoresNext(url: string)
    ensures Continuation(map["next" := url]) == Stop
  {
  }

  /** The pages the callback chain handles, starting at `url`, in request
      order: a page is handled only when it is present and its header parses,
      and at most `fuel` follow-up requests are made. An empty page does not
      stop the walk. */
  function Walk<T>(server: Pagination.Server<T>, parse: Pagination.Parser, url: string, fuel: nat): (r: seq<seq<T>>)
    ensures |r| <= fuel + 1
    ensures r == [] <==> url !in server || parse(server[url].link).Failure?
    ensures r != [] ==> r[0] == server[url].items
    decreases fuel
  {
    if url !in server then []
    else
      match parse(server[url].link)
      case Failure(_) => []
      case Success(pages) =>
        match Continuation(pages)
        case Stop => [server[url].items]
        case Request(next) =>
          if fuel == 0 then [server[url].items]
          else [server[url].items] + Walk(server, parse, next, fuel - 1)
  }

  /** A Canvas page chain as the older variant reads it: each page is present
      and parses; it names itself `current` and the final page `last`; every
      page but the final one is a different URL from the final one and
      names its successor `next`. */
  predicate IsCanvasChain<T>(server: Pagination.Server<T>, parse: Pagination.Parser, urls: seq<string>) {
    && |urls| >= 1
    && (forall i :: 0 <= i < |urls| ==> Pagination.LinksAt(server, parse, urls[i]).Some?)
    && (forall i :: 0 <= i < |urls| ==>
          Get(Pagination.LinksAt(server, parse, urls[i]).value, "current") == Defined(urls[i])
          && Get(Pagination.LinksAt(server, parse, urls[i]).value, "last") == Defined(urls[|urls| - 1]))
    && (forall i :: 0 <= i < |urls| - 1 ==>
          urls[i] != urls[|urls| - 1] && Get(Pagination.LinksAt(server, parse, urls[i]).value, "next") == Defined(urls[i + 1]))
  }

  /** Such a chain is walked page by page to its end, given as many
      follow-up requests as it has pages after the first. */
  lemma {:induction false} WalkChain<T>(server: Pagination.Server<T>, parse: Pagination.Parser, urls: seq<string>, fuel: nat)
    requires IsCanvasChain(server, parse, urls) && fuel >= |urls| - 1
    ensures Walk(server, parse, urls[0], fuel) == Pagination.PagesOf(server, urls)
    decreases |urls|
  {
    var pages := Pagination.LinksAt(server, parse, urls[0]).value;
    assert urls[0] in server && parse(server[urls[0]].link) == Success(pages);
    if |urls| == 1 {
      assert Continuation(pages) == Stop;
    } else {
      assert Continuation(pages) == Request(urls[1]);
      var tail := urls[1..];
      assert IsCanvasChain(server, parse, tail) by {
        forall i | 0 <= i < |tail|
          ensures Get(Pagination.LinksAt(server, parse, tail[i]).value, "last") == Defined(tail[|tail| - 1])
        {
          assert tail[i] == urls[i + 1];
        }
        forall i | 0 <= i < |tail| - 1
          ensures tail[i] != tail[|tail| - 1] && Get(Pagination.LinksAt(server, parse, tail[i]).value, "next") == Defined(tail[i + 1])
        {
          assert tail[i] == urls[i + 1];
        }
      }
      WalkChain(server, parse, tail, fuel - 1);
    }
  }

  /** A page whose relations name `current` has a `Link` header, so the
      older parser, which has no null guard, reads the same relations from it. */
  lemma LegacyReadsCanvasPage<T>(server: Pagination.Server<T>, url: string)
    requires Pagination.LinksAt(server, LinkHeader.ParseLinkHeader, url).Some?
    requires "current" in Pagination.LinksAt(server, LinkHeader.ParseLinkHeader, url).value
    ensures Pagination.LinksAt(server, LinkHeader.ParseLinkHeaderLegacy, url) == Pagination.LinksAt(server, LinkHeader.ParseLinkHeader, url)
  {
    var header := server[url].link;
    assert LinkHeader.ParseLinkHeader(header).value != map[];
  }

  /** On a Canvas chain whose pages after the first are non-empty and whose
      final page has no `next`, the older walk with its unguarded parser and
      `getAllResponses` with the null-guarded one collect the same items in
      the same order. */
  lemma {:induction false} WalkAgreesWithNewer<T>(server: Pagination.Server<T>, urls: seq<string>, fuel: nat)
    requires IsCanvasChain(server, LinkHeader.ParseLinkHeader, urls) && fuel >= |urls| - 1
    requires forall i :: 1 <= i < |urls| ==> |server[urls[i]].items| > 0
    requires "next" !in Pagination.LinksAt(server, LinkHeader.ParseLinkHeader, urls[|urls| - 1]).value
    ensures Pagination.GetAllResponses(server, LinkHeader.ParseLinkHeader, urls[0], fuel)
            == Success(Flatten(Walk(server, LinkHeader.ParseLinkHeaderLegacy, urls[0], fuel)))
  {
    var newer, older := LinkHeader.ParseLinkHeader, LinkHeader.ParseLinkHeaderLegacy;
    forall i | 0 <= i < |urls|
      ensures Pagination.LinksAt(server, older, urls[i]) == Pagination.LinksAt(server, newer, urls[i])
    {
      assert Get(Pagination.LinksAt(server, newer, urls[i]).value, "current") == Defined(urls[i]);
      LegacyReadsCanvasPage(server, urls[i]);
    }
    assert IsCanvasChain(server, older, urls);
    WalkChain(server, older, urls, fuel);
    assert Pagination.IsChain(server, newer, urls) by {
      forall i | 0 <= i < |urls| - 1
        ensures "next" in Pagination.LinksAt(server, newer, urls[i]).value
                && Pagination.LinksAt(server, newer, urls[i]).value["next"] == urls[i + 1]
      {
        assert Get(Pagination.LinksAt(server, newer, urls[i]).value, "next") == Defined(urls[i + 1]);
      }
    }
    Pagination.ChainCollected(server, newer, urls, fuel);
  }

  /** Each page's courses filtered on their own, as the per-page callback
      does. */
  function ActiveCoursesOfPages(pages: seq<seq<Course>>): seq<Course> {
    if |pages| == 0 then [] else FilterInactiveClasses(pages[0]) + ActiveCoursesOfPages(pages[1..])
  }

  /** Filtering page by page keeps the same courses, in the same order, as
      filtering the whole collection at once. */
  lemma {:induction false} PerPageFilterIsWholeFilter(pages: seq<seq<Course>>)
    ensures ActiveCoursesOfPages(pages) == FilterInactiveClasses(Flatten(pages))
    decreases |pages|
  {
    if |pages| > 0 {
      PerPageFilterIsWholeFilter(pages[1..]);
      FilterAppend(pages[0], Flatten(pages[1..]), IsActive);
    }
  }

  /** The answer to one submission request, paired with its assignment. */
  datatype Reply = Reply(assignment: Assignment, submission: Submission)

  predicate IsListedReply(r: Reply) {
    r.submission.workflowState == "unsubmitted"
  }

  /** A course container of the older variant: hidden until something is
      listed in it. */
  datatype Container = Container(visible: bool, listed: seq<Assignment>)

  /** One reply's callback: an unsubmitted submission appends its assignment
      and reveals the container; any other reply changes nothing. */
  function Update(c: Container, r: Reply): (d: Container)
    ensures IsListedReply(r) ==> d.visible && d.listed == c.listed + [r.assignment]
    ensures !IsListedReply(r) ==> d == c
  {
    if r.submission.workflowState == "unsubmitted" then Container(true, c.listed + [r.assignment]) else c
  }

  function AssignmentsOf(replies: seq<Reply>): (r: seq<Assignment>)
    ensures |r| == |replies|
    ensures forall i :: 0 <= i < |r| ==> r[i] == replies[i].assignment
  {
    if |replies| == 0 then [] else [replies[0].assignment] + AssignmentsOf(replies[1..])
  }

  /** The callbacks run in the order the replies arrive: exactly the
      assignments of unsubmitted replies are appended, in arrival order, and
      the container ends visible iff it was or some reply was unsubmitted. */
  function UpdateAll(c: Container, replies: seq<Reply>): (r: Container)
    ensures r.listed == c.listed + AssignmentsOf(Filter(replies, IsListedReply))
    ensures r.visible <==> c.visible || exists i :: 0 <= i < |replies| && IsListedReply(replies[i])
    decreases |replies|
  {
    if |replies| == 0 then c
    else
      var r := UpdateAll(Update(c, replies[0]), replies[1..]);
      ListedHead(replies);
      AnyListedHead(replies);
      r
  }

  lemma ListedHead(replies: seq<Reply>)
    requires |replies| > 0
    ensures AssignmentsOf(Filter(replies, IsListedReply))
            == (if IsListedReply(replies[0]) then [replies[0].assignment] else [])
               + AssignmentsOf(Filter(replies[1..], IsListedReply))
  {
    var kept := Filter(replies[1..], IsListedReply);
    assert replies == [replies[0]] + replies[1..];
    FilterCons(replies[0], replies[1..], IsListedReply);
    if IsListedReply(replies[0]) {
      assert AssignmentsOf([replies[0]] + kept)[1..] == AssignmentsOf(kept);
    }
  }

  lemma AnyListedHead(replies: seq<Reply>)
    requires |replies| > 0
    ensures (exists i :: 0 <= i < |replies| && IsListedReply(replies[i])) <==>
            IsListedReply(replies[0]) || exists i :: 0 <= i < |replies[1..]| && IsListedReply(replies[1..][i])
  {
    forall i | 1 <= i < |replies|
      ensures replies[i] == replies[1..][i - 1]
    {
    }
  }

  /** `fetchAllAssignments` is called once per observee id, in order, or
      once for "self" when there are none. */
  function LegacyTargets(observees: seq<Observee>): (r: seq<StudentId>)
    ensures |observees| == 0 ==> r == [Self]
    ensures |observees| > 0 ==> |r| == |observees| && forall i :: 0 <= i < |r| ==> r[i] == User(observees[i].id)
  {
    if |observees| > 0 then IdsInOrder(observees); ObserveeIds(observees) else [Self]
  }

  function ObserveeIds(observees: seq<Observee>): seq<StudentId> {
    if |observees| == 0 then [] else [User(observees[0].id)] + ObserveeIds(observees[1..])
  }

  /** Both variants fetch for the same students, in the same order. */
  lemma {:induction false} SameStudentsAsNewer(observees: seq<Observee>)
    ensures |LegacyTargets(observees)| == |Sidebar.Targets(observees)|
    ensures forall i :: 0 <= i < |LegacyTargets(observees)| ==> LegacyTargets(observees)[i] == Sidebar.Targets(observees)[i].student
  {
    if |observees| > 0 {
      IdsInOrder(observees);
    }
  }

  /** The older `populateSidebar` callback on the observee reply: the
      reply's `Link` header goes through the unguarded parser before the
      students are chosen, so a reply without a header, or with a piece the
      pattern does not match, throws and nobody is fetched for. */
  function PopulateStudents(reply: Pagination.Response<Observee>): (r: Result<seq<StudentId>>)
    ensures r.Success? <==> LinkHeader.ParseLinkHeaderLegacy(reply.link).Success?
    ensures reply.link.None? ==> r == Failure(NullHeader)
    ensures r.Success? ==> r.value == LegacyTargets(reply.items)
  {
    var pages :- LinkHeader.ParseLinkHeaderLegacy(reply.link);
    Success(LegacyTargets(reply.items))
  }

  /** When the older variant gets past the header of the observee reply, it
      fetches for the same students, in the same order, as the newer one does
      for the same observees. */
  lemma PopulateAgreesWithNewer(reply: Pagination.Response<Observee>)
    requires PopulateStudents(reply).Success?
    ensures |PopulateStudents(reply).value| == |Sidebar.Targets(reply.items)|
    ensures forall i :: 0 <= i < |PopulateStudents(reply).value| ==>
      PopulateStudents(reply).value[i] == Sidebar.Targets(reply.items)[i].student
  {
    SameStudentsAsNewer(reply.items);
  }

  lemma {:induction false} IdsInOrder(observees: seq<Observee>)
    ensures |ObserveeIds(observees)| == |observees|
    ensures forall i :: 0 <= i < |observees| ==> ObserveeIds(observees)[i] == User(observees[i].id)
    decreases |observees|
  {
    if |observees| > 0 {
      IdsInOrder(observees[1..]);
      forall i | 1 <= i < |observees|
        ensures ObserveeIds(observees)[i] == User(observees[i].id)
      {
        assert ObserveeIds(observees)[i] == ObserveeIds(observees[1..])[i - 1];
      }
    }
  }
}

=== FILE: link_header.dfy ===
/** `parseLinkHeader`: the `Link` response header (section 3 of RFC 8288)
    turned into a relation -> URL map, the way the extension does it. The
    header is split on every `,` and each piece is searched with the regular
    expression `<(https:.*)>.*rel="(.*)"`; group 2 names the relation and
    group 1 is the URL. A piece the expression does not match makes `m` null
    and `m[2]` throws, which aborts the whole parse. */
module LinkHeader {
  import opened Outcomes
  import opened Text

  /** Characters the regular-expression `.` refuses to match. */
  predicate IsLineTerminator(c: char) {
    c == '\n' || c == '\r' || c == '\U{2028}' || c == '\U{2029}'
  }

  const Open: string := "<https:"
  const RelOpen: string := "rel=\""

  /** Positions of one way the pattern can match a string: `<https:` at `p`,
      the `>` closing group 1 at `q`, `rel="` at `r` and the final `"` at `t`. */
  datatype Span = Span(p: nat, q: nat, r: nat, t: nat)

  predicate IsMatch(s: string, m: Span) {
    && m.p + 7 <= m.q && m.q < m.r && m.r + 5 <= m.t && m.t < |s|
    && OccursAt(s, Open, m.p) && s[m.q] == '>' && OccursAt(s, RelOpen, m.r) && s[m.t] == '"'
    && forall k :: m.p <= k <= m.t ==> !IsLineTerminator(s[k])
  }

  /** The order in which a backtracking engine tries matches: leftmost start
      first, then the longest group 1, then the longest `.*`, then the longest
      group 2 (every star is greedy). */
  predicate Prefers(a: Span, b: Span) {
    || a.p < b.p
    || (a.p == b.p && (a.q > b.q || (a.q == b.q && (a.r > b.r || (a.r == b.r && a.t >= b.t)))))
  }

  /** The end of the line that starts at or before `i`: the first line
      terminator at or after `i`, or the end of `s`. */
  function LineEnd(s: string, i: nat): (e: nat)
    requires i <= |s|
    ensures i <= e <= |s|
    ensures forall k :: i <= k < e ==> !IsLineTerminator(s[k])
    ensures e < |s| ==> IsLineTerminator(s[e])
    decreases |s| - i
  {
    if i == |s| || IsLineTerminator(s[i]) then i else LineEnd(s, i + 1)
  }

  /** A match never crosses a line terminator. */
  lemma MatchInLine(s: string, n: Span)
    requires IsMatch(s, n)
    ensures n.t < LineEnd(s, n.p)
  {
  }

  /** The preferred match that starts exactly at `p`, if any: the engine
      backs off from the last quote of the line, then the last `rel="`
      before it, then the last `>` before that. */
  function MatchAt(s: string, p: nat): (m: Option<Span>)
    requires p <= |s|
    ensures m.Some? ==> m.value.p == p && IsMatch(s, m.value)
    ensures m.Some? ==> forall n: Span :: n.p == p && IsMatch(s, n) ==> Prefers(m.value, n)
    ensures m.None? ==> forall n: Span :: n.p == p ==> !IsMatch(s, n)
  {
    if !OccursAt(s, Open, p) then None
    else
      match LastIndexIn(s, "\"", p, LineEnd(s, p))
      case None =>
        NoMatchWithoutQuote(s, p);
        None
      case Some(t) =>
        match LastIndexIn(s, RelOpen, p + 8, t)
        case None =>
          NoMatchWithoutRel(s, p, t);
          None
        case Some(r) =>
          match LastIndexIn(s, ">", p + 7, r)
          case None =>
            NoMatchWithoutClose(s, p, t, r);
            None
          case Some(q) =>
            PreferredAt(s, p, t, r, q);
            Some(Span(p, q, r, t))
  }

  lemma NoMatchWithoutQuote(s: string, p: nat)
    requires p <= |s| && LastIndexIn(s, "\"", p, LineEnd(s, p)).None?
    ensures forall n: Span :: n.p == p ==> !IsMatch(s, n)
  {
    forall n: Span | n.p == p && IsMatch(s, n)
      ensures false
    {
      MatchInLine(s, n);
      OccursAtChar(s, '"', n.t);
    }
  }

  /** Every match at `p` closes at or before the last quote of the line. */
  lemma MatchesEndBy(s: string, p: nat, t: nat)
    requires p <= |s| && LastIndexIn(s, "\"", p, LineEnd(s, p)) == Some(t)
    ensures forall n: Span :: n.p == p && IsMatch(s, n) ==> n.t <= t
  {
    forall n: Span | n.p == p && IsMatch(s, n)
      ensures n.t <= t
    {
      MatchInLine(s, n);
      OccursAtChar(s, '"', n.t);
    }
  }

  lemma NoMatchWithoutRel(s: string, p: nat, t: nat)
    requires p <= |s| && LastIndexIn(s, "\"", p, LineEnd(s, p)) == Some(t)
    requires LastIndexIn(s, RelOpen, p + 8, t).None?
    ensures forall n: Span :: n.p == p ==> !IsMatch(s, n)
  {
    MatchesEndBy(s, p, t);
  }

  lemma NoMatchWithoutClose(s: string, p: nat, t: nat, r: nat)
    requires p <= |s| && LastIndexIn(s, "\"", p, LineEnd(s, p)) == Some(t)
    requires LastIndexIn(s, RelOpen, p + 8, t) == Some(r)
    requires LastIndexIn(s, ">", p + 7, r).None?
    ensures forall n: Span :: n.p == p ==> !IsMatch(s, n)
  {
    MatchesEndBy(s, p, t);
    forall n: Span | n.p == p && IsMatch(s, n)
      ensures false
    {
      assert n.r <= r;
      OccursAtChar(s, '>', n.q);
    }
  }

  lemma PreferredAt(s: string, p: nat, t: nat, r: nat, q: nat)
    requires p <= |s| && OccursAt(s, Open, p) && LastIndexIn(s, "\"", p, LineEnd(s, p)) == Some(t)
    requires LastIndexIn(s, RelOpen, p + 8, t) == Some(r)
    requires LastIndexIn(s, ">", p + 7, r) == Some(q)
    ensures IsMatch(s, Span(p, q, r, t))
    ensures forall n: Span :: n.p == p && IsMatch(s, n) ==> Prefers(Span(p, q, r, t), n)
  {
    MatchesEndBy(s, p, t);
    OccursAtChar(s, '"', t);
    OccursAtChar(s, '>', q);
    MatchInLineConverse(s, p, LineEnd(s, p), t);
    forall n: Span | n.p == p && IsMatch(s, n)
      ensures Prefers(Span(p, q, r, t), n)
    {
      assert n.r <= r;
      OccursAtChar(s, '>', n.q);
    }
  }

  lemma MatchInLineConverse(s: string, p: nat, e: nat, t: nat)
    requires p <= |s| && e == LineEnd(s, p) && p <= t < e
    ensures forall k :: p <= k <= t ==> !IsLineTerminator(s[k])
  {
  }

  /** The preferred match among those starting at or after `p`. */
  function ExecFrom(s: string, p: nat): (m: Option<Span>)
    requires p <= |s|
    ensures m.Some? ==> p <= m.value.p && IsMatch(s, m.value)
    ensures m.Some? ==> forall n: Span :: p <= n.p && IsMatch(s, n) ==> Prefers(m.value, n)
    ensures m.None? ==> forall n: Span :: p <= n.p ==> !IsMatch(s, n)
    decreases |s| - p
  {
    match MatchAt(s, p)
    case Some(m) => Some(m)
    case None => if p == |s| then None else ExecFrom(s, p + 1)
  }

  /** `s.match(/<(https:.*)>.*rel="(.*)"/)`: the match a backtracking engine
      reports, or none when the pattern matches nowhere in `s`. */
  function Exec(s: string): (m: Option<Span>)
    ensures m.Some? ==> IsMatch(s, m.value) && forall n: Span :: IsMatch(s, n) ==> Prefers(m.value, n)
    ensures m.None? <==> forall n: Span :: !IsMatch(s, n)
  {
    ExecFrom(s, 0)
  }

  datatype Link = Link(rel: string, url: string)

  /** The link named by a match: group 2 (`m[2]`) is the relation and group 1
      (`m[1]`) the URL. */
  function Captures(s: string, m: Span): (l: Link)
    requires IsMatch(s, m)
    ensures |l.url| >= 6 && l.url[..6] == "https:"
    ensures s[m.p..m.q + 1] == "<" + l.url + ">"
    ensures s[m.r..m.t + 1] == RelOpen + l.rel + "\""
  {
    var url, rel := s[m.p + 1..m.q], s[m.r + 5..m.t];
    assert url[..6] == s[m.p + 1..m.p + 7] == Open[1..];
    assert s[m.p..m.q + 1] == [s[m.p]] + url + [s[m.q]];
    assert s[m.r..m.t + 1] == s[m.r..m.r + 5] + rel + [s[m.t]];
    Link(rel, url)
  }

  /** The pattern matches somewhere in `s`. */
  ghost predicate Matches(s: string) {
    exists n: Span :: IsMatch(s, n)
  }

  /** `m` is the match the engine reports: a match preferred to every other. */
  ghost predicate Reported(s: string, m: Span) {
    IsMatch(s, m) && forall n: Span :: IsMatch(s, n) ==> Prefers(m, n)
  }

  /** The link one comma-separated piece of the header names, if it matches. */
  function LinkOf(segment: string): (r: Option<Link>)
    ensures r.None? <==> !Matches(segment)
    ensures r.Some? ==> exists m: Span :: Reported(segment, m) && r.value == Captures(segment, m)
  {
    match Exec(segment)
    case None => None
    case Some(m) => Some(Captures(segment, m))
  }

  /** Every piece of the header has the shape the pattern asks for. */
  predicate AllMatch(segments: seq<string>) {
    forall i :: 0 <= i < |segments| ==> LinkOf(segments[i]).Some?
  }

  /** The links of all pieces in order, or the failure of the first piece
      that does not match. */
  function MatchSegments(segments: seq<string>): (r: Result<seq<Link>>)
    ensures r.Success? <==> AllMatch(segments)
    ensures r.Success? ==> |r.value| == |segments|
    ensures r.Success? ==> forall i :: 0 <= i < |segments| ==> r.value[i] == LinkOf(segments[i]).value
    ensures r.Failure? ==> exists i :: 0 <= i < |segments| && r.error == UnmatchedSegment(segments[i])
                                       && LinkOf(segments[i]).None? && forall j :: 0 <= j < i ==> LinkOf(segments[j]).Some?
  {
    MapAll(segments, LinkOf, s => UnmatchedSegment(s))
  }

  /** The `pages` object after `pages[rel] = page` for each link in order. */
  function ToPages(links: seq<Link>): (r: map<string, string>)
    ensures forall i :: 0 <= i < |links| ==> links[i].rel in r
    ensures forall k :: k in r ==> exists i :: 0 <= i < |links| && links[i].rel == k && r[k] == links[i].url
  {
    if |links| == 0 then map[]
    else
      var front := links[..|links| - 1];
      var before := ToPages(front);
      assert forall i :: 0 <= i < |front| ==> front[i] == links[i];
      var r := before[links[|links| - 1].rel := links[|links| - 1].url];
      ToPagesStep(links, before, r);
      r
  }

  /** One more `pages[rel] = page` keeps every named relation a key, and
      every key the relation of a link with that URL. */
  lemma ToPagesStep(links: seq<Link>, before: map<string, string>, r: map<string, string>)
    requires |links| > 0
    requires forall i :: 0 <= i < |links| - 1 ==> links[i].rel in before
    requires forall k :: k in before ==> exists i :: 0 <= i < |links| - 1 && links[i].rel == k && before[k] == links[i].url
    requires r == before[links[|links| - 1].rel := links[|links| - 1].url]
    ensures forall i :: 0 <= i < |links| ==> links[i].rel in r
    ensures forall k :: k in r ==> exists i :: 0 <= i < |links| && links[i].rel == k && r[k] == links[i].url
  {
    var last := links[|links| - 1];
    forall k | k in r
      ensures exists i :: 0 <= i < |links| && links[i].rel == k && r[k] == links[i].url
    {
      if k == last.rel {
        assert links[|links| - 1].rel == k && r[k] == links[|links| - 1].url;
      } else {
        var i :| 0 <= i < |links| - 1 && links[i].rel == k && before[k] == links[i].url;
        assert r[k] == links[i].url;
      }
    }
  }

  /** A relation maps to the URL of the last link naming it: a later
      duplicate overwrites an earlier one. */
  lemma {:induction false} ToPagesLastWins(links: seq<Link>, i: nat)
    requires i < |links| && forall j :: i < j < |links| ==> links[j].rel != links[i].rel
    ensures links[i].rel in ToPages(links) && ToPages(links)[links[i].rel] == links[i].url
    decreases |links|
  {
    if i < |links| - 1 {
      var front := links[..|links| - 1];
      assert front[i] == links[i];
      ToPagesLastWins(front, i);
    }
  }

  /** The pages map of a header value that is present: every piece must
      match; the relations map to the URLs of their last links. */
  function ParseHeaderValue(h: string): (r: Result<map<string, string>>)
    ensures r.Success? <==> AllMatch(Split(h, ','))
    ensures r.Success? ==> r.value == ToPages(MatchSegments(Split(h, ',')).value)
  {
    var segments := Split(h, ',');
    var matched := MatchSegments(segments);
    if matched.Failure? then Failure(matched.error)
    else
      var links := matched.value;
      Success(ToPages(links))
  }

  /** `parseLinkHeader` of `src/contentScript.js`: an absent header gives the
      empty map. */
  function ParseLinkHeader(header: Option<string>): (r: Result<map<string, string>>)
    ensures header.None? ==> r == Success(map[])
    ensures header.Some? ==> r == ParseHeaderValue(header.value)
  {
    match header
    case None => Success(map[])
    case Some(h) => ParseHeaderValue(h)
  }

  /** `parseLinkHeader` of the root `contentScript.js`: there is no null
      guard, so an absent header throws on `null.split`. */
  function ParseLinkHeaderLegacy(header: Option<string>): (r: Result<map<string, string>>)
    ensures header.None? ==> r == Failure(NullHeader)
    ensures header.Some? ==> r == ParseHeaderValue(header.value)
  {
    match header
    case None => Failure(NullHeader)
    case Some(h) => ParseHeaderValue(h)
  }

  /** Text that can stand for a URL or a relation name in a header the
      server writes: no quote, no comma, no line terminator. */
  predicate Plain(s: string) {
    forall k :: 0 <= k < |s| ==> s[k] != '"' && s[k] != ',' && !IsLineTerminator(s[k])
  }

  /** A link the way Canvas writes one: an `https:` URL and a plain name. */
  predicate WellFormed(l: Link) {
    |l.url| >= 6 && l.url[..6] == "https:" && Plain(l.url) && Plain(l.rel)
  }

  /** One link written as `<URL>; rel="NAME"`. */
  function Render(l: Link): string {
    "<" + l.url + ">; rel=\"" + l.rel + "\""
  }

  function RenderAll(links: seq<Link>): (segments: seq<string>)
    ensures |segments| == |links|
    ensures forall i :: 0 <= i < |links| ==> segments[i] == Render(links[i])
  {
    seq(|links|, i requires 0 <= i < |links| => Render(links[i]))
  }

  /** The header value a server sends for `links`: the rendered links joined
      by commas. */
  function RenderHeader(links: seq<Link>): string {
    Join(RenderAll(links), ',')
  }

  const RelSeparator: string := ">; rel=\""

  /** Character `k` of `Render(l)`, read off the pieces it is made of. */
  lemma RenderAt(l: Link, k: int)
    requires 0 <= k < |Render(l)|
    ensures |Render(l)| == |l.url| + |l.rel| + 10
    ensures Render(l)[k] ==
      if k == 0 then '<'
      else if k <= |l.url| then l.url[k - 1]
      else if k <= |l.url| + 8 then RelSeparator[k - |l.url| - 1]
      else if k < |l.url| + 9 + |l.rel| then l.rel[k - |l.url| - 9]
      else '"'
  {
    assert Render(l) == "<" + l.url + RelSeparator + l.rel + "\"";
  }

  /** The match that the well-formed rendering of `l` is built to produce. */
  function Intended(l: Link): Span {
    Span(0, |l.url| + 1, |l.url| + 4, |l.url| + 9 + |l.rel|)
  }

  lemma IntendedMatches(l: Link)
    requires WellFormed(l)
    ensures IsMatch(Render(l), Intended(l))
  {
    var u, n := |l.url|, |l.rel|;
    RenderOpens(l);
    RenderRelOpen(l);
    RenderInOneLine(l);
    RenderAt(l, u + 1);
    RenderAt(l, u + 9 + n);
  }

  lemma RenderOpens(l: Link)
    requires WellFormed(l)
    ensures OccursAt(Render(l), Open, 0)
  {
    var s := Render(l);
    forall k | 0 <= k < 7
      ensures s[k] == Open[k]
    {
      RenderAt(l, k);
      if k > 0 {
        assert l.url[..6][k - 1] == l.url[k - 1];
      }
    }
    assert s[..7] == Open;
  }

  lemma RenderRelOpen(l: Link)
    requires WellFormed(l)
    ensures OccursAt(Render(l), RelOpen, |l.url| + 4)
  {
    var s, u := Render(l), |l.url|;
    forall k | u + 4 <= k < u + 9
      ensures s[k] == RelOpen[k - u - 4]
    {
      RenderAt(l, k);
    }
    assert s[u + 4..u + 9] == RelOpen;
  }

  lemma RenderInOneLine(l: Link)
    requires WellFormed(l)
    ensures forall k :: 0 <= k < |Render(l)| ==> !IsLineTerminator(Render(l)[k])
  {
    forall k | 0 <= k < |Render(l)|
      ensures !IsLineTerminator(Render(l)[k])
    {
      RenderAt(l, k);
    }
  }

  /** Any match in the rendering of `l` uses the `rel="` and the closing quote
      that rendering put there, and a `>` no later than the intended one. */
  lemma MatchesOfRender(l: Link, m: Span)
    requires WellFormed(l) && IsMatch(Render(l), m)
    ensures m.r == |l.url| + 4 && m.t == |l.url| + 9 + |l.rel| && m.q <= |l.url| + 1
  {
    var s, u, n := Render(l), |l.url|, |l.rel|;
    assert s[m.r..m.r + 5][4] == s[m.r + 4];
    RenderAt(l, m.r + 4);
    RenderAt(l, m.t);
    RenderAt(l, m.q);
  }

  /** The engine reports the intended match on a rendered well-formed link. */
  lemma ExecRender(l: Link)
    requires WellFormed(l)
    ensures Exec(Render(l)) == Some(Intended(l))
  {
    var s, i := Render(l), Intended(l);
    IntendedMatches(l);
    var e := Exec(s);
    assert e.None? ==> !IsMatch(s, i);
    var m := e.value;
    assert IsMatch(s, m) && Prefers(m, i);
    MatchesOfRender(l, m);
    assert m == i;
  }

  lemma CapturesIntended(l: Link)
    requires WellFormed(l)
    ensures IsMatch(Render(l), Intended(l))
    ensures Captures(Render(l), Intended(l)) == l
  {
    var s, u, n := Render(l), |l.url|, |l.rel|;
    IntendedMatches(l);
    forall k | 1 <= k < u + 1 ensures s[k] == l.url[k - 1] {
      RenderAt(l, k);
    }
    forall k | u + 9 <= k < u + 9 + n ensures s[k] == l.rel[k - u - 9] {
      RenderAt(l, k);
    }
    assert s[1..u + 1] == l.url;
    assert s[u + 9..u + 9 + n] == l.rel;
  }

  /** The pattern, run on a rendered well-formed link, captures exactly that
      link's relation and URL. */
  lemma LinkOfRender(l: Link)
    requires WellFormed(l)
    ensures LinkOf(Render(l)) == Some(l)
  {
    ExecRender(l);
    CapturesIntended(l);
  }

  /** A rendered link contains no comma, so `split(",")` keeps it whole. */
  lemma RenderHasNoComma(l: Link)
    requires WellFormed(l)
    ensures ',' !in Render(l)
  {
    var s := Render(l);
    forall k | 0 <= k < |s|
      ensures s[k] != ','
    {
      RenderAt(l, k);
    }
  }

  /** Every rendered link is matched back to itself. */
  lemma MatchRendered(links: seq<Link>)
    requires forall i :: 0 <= i < |links| ==> WellFormed(links[i])
    ensures MatchSegments(RenderAll(links)) == Success(links)
  {
    var segments := RenderAll(links);
    forall i | 0 <= i < |segments|
      ensures LinkOf(segments[i]) == Some(links[i])
    {
      LinkOfRender(links[i]);
    }
    assert AllMatch(segments);
    var r := MatchSegments(segments);
    assert r.Success?;
    assert r.value == links;
  }

  /** Round trip: parsing the header written for well-formed links yields the
      pages map of those links, the last link of a relation winning. */
  lemma ParseRendered(links: seq<Link>)
    requires |links| >= 1
    requires forall i :: 0 <= i < |links| ==> WellFormed(links[i])
    ensures ParseLinkHeader(Some(RenderHeader(links))) == Success(ToPages(links))
  {
    var segments := RenderAll(links);
    forall i | 0 <= i < |segments|
      ensures ',' !in segments[i]
    {
      RenderHasNoComma(links[i]);
    }
    SplitJoin(segments, ',');
    assert Split(RenderHeader(links), ',') == segments;
    MatchRendered(links);
    assert AllMatch(segments);
    assert ParseHeaderValue(RenderHeader(links)) == Success(ToPages(links));
  }

  /** The null guard does not cover an empty header: `"".split(",")` is
      `[""]`, which the pattern cannot match. */
  lemma EmptyHeaderFails()
    ensures ParseLinkHeader(Some("")).Failure?
  {
    assert Split("", ',') == [""];
    assert LinkOf("") == None;
  }
}

=== FILE: outcomes.dfy ===
/** Failure-compatible wrappers shared by the whole model.

    The extension never catches anything: a thrown TypeError, a rejected
    `fetch` promise or a response that cannot be decoded simply ends the
    enclosing asynchronous call. `Result` makes those endings explicit so that
    every operation is total. */
module Outcomes {

  datatype Option<+T> = None | Some(value: T)

  /** Why an operation of the model ended without a value. */
  datatype Error =
    | RequestFailed(url: string)        // the request for `url` got no usable response
    | NullHeader                        // `null.split(",")`: no Link header, legacy parser
    | UnmatchedSegment(segment: string) // `m[2]` on a null regex match
    | PageLimit                         // the fuel bound on a `next` chain was reached

  datatype Result<+T> = Success(value: T) | Failure(error: Error) {

    predicate IsFailure() {
      Failure?
    }

    function PropagateFailure<U>(): Result<U>
      requires Failure?
    {
      Failure(error)
    }

    function Extract(): T
      requires Success?
    {
      value
    }
  }

  /** `f` applied to every element in order, or the failure `fail` names for
      the first element `f` has no value for. */
  function MapAll<A, B>(xs: seq<A>, f: A -> Option<B>, fail: A -> Error): (r: Result<seq<B>>)
    ensures r.Success? <==> forall i :: 0 <= i < |xs| ==> f(xs[i]).Some?
    ensures r.Success? ==> |r.value| == |xs| && forall i :: 0 <= i < |xs| ==> f(xs[i]) == Some(r.value[i])
    ensures r.Failure? ==> exists i :: 0 <= i < |xs| && f(xs[i]).None? && r.error == fail(xs[i])
                                     && forall j :: 0 <= j < i ==> f(xs[j]).Some?
  {
    if |xs| == 0 then Success([])
    else
      match f(xs[0])
      case None => Failure(fail(xs[0]))
      case Some(y) =>
        var rest :- MapAll(xs[1..], f, fail);
        assert forall i :: 1 <= i < |xs| ==> xs[i] == xs[1..][i - 1];
        Success([y] + rest)
  }
}

=== FILE: pagination.dfy ===
/** `getAllResponses`: fetch a URL, then keep requesting the page the `next`
    relation of the latest response points to, concatenating the decoded
    items, until a response has no `next` relation or a fetched page is empty.

    The network is a pure map from URL to response; the source bounds the
    chain by nothing, so `fuel` bounds the number of follow-up requests. */
module Pagination {
  import opened Outcomes
  import opened LinkHeader
  import opened Sequences

  /** One HTTP response: the decoded items of its body and its raw `Link`
      header, if it has one. */
  datatype Response<T> = Response(items: seq<T>, link: Option<string>)

  /** The responses a server gives; requesting a URL outside the map fails. */
  type Server<T> = map<string, Response<T>>

  /** A `Link` header parser: `parseLinkHeader` of one variant or the other. */
  type Parser = Option<string> -> Result<map<string, string>>

  function Fetch<T>(server: Server<T>, url: string): Result<Response<T>> {
    if url in server then Success(server[url]) else Failure(RequestFailed(url))
  }

  /** `prefix` in front of the items of a successful `r`; failures pass through. */
  function Prepend<T>(prefix: seq<T>, r: Result<seq<T>>): Result<seq<T>> {
    match r
    case Success(rest) => Success(prefix + rest)
    case Failure(e) => Failure(e)
  }

  /** The items of the pages reached from the relations `links` by following
      `next`, with at most `fuel` further requests. An empty page ends the
      chain before its header is read. */
  function FollowNext<T>(server: Server<T>, parse: Parser, links: map<string, string>, fuel: nat): (r: Result<seq<T>>)
    ensures "next" !in links ==> r == Success([])
    ensures "next" in links && r.Success? ==> links["next"] in server && server[links["next"]].items <= r.value
    ensures "next" in links && r.Success? && |server[links["next"]].items| == 0 ==> r.value == []
    decreases fuel
  {
    if "next" !in links then Success([])
    else if fuel == 0 then Failure(PageLimit)
    else
      var page :- Fetch(server, links["next"]);
      if |page.items| == 0 then Success([])
      else
        var next :- parse(page.link);
        Prepend(page.items, FollowNext(server, parse, next, fuel - 1))
  }

  /** All items of the paged collection starting at `url`, first page first. */
  function GetAllResponses<T>(server: Server<T>, parse: Parser, url: string, fuel: nat): (r: Result<seq<T>>)
    ensures r.Success? ==> url in server && server[url].items <= r.value
  {
    var first :- Fetch(server, url);
    var links :- parse(first.link);
    Prepend(first.items, FollowNext(server, parse, links, fuel))
  }

  /** The loop of the source, step for step: it computes `GetAllResponses`. */
  method GetAllResponsesLoop<T>(server: Server<T>, parse: Parser, url: string, fuel: nat) returns (r: Result<seq<T>>)
    ensures r == GetAllResponses(server, parse, url, fuel)
  {
    var response := Fetch(server, url);
    if response.Failure? {
      return Failure(response.error);
    }
    var results := response.value.items;
    var parsed := parse(response.value.link);
    if parsed.Failure? {
      return Failure(parsed.error);
    }
    var links := parsed.value;
    var budget := fuel;
    while "next" in links
      invariant Prepend(results, FollowNext(server, parse, links, budget)) == GetAllResponses(server, parse, url, fuel)
      decreases budget
    {
      if budget == 0 {
        return Failure(PageLimit);
      }
      var nextResponse := Fetch(server, links["next"]);
      if nextResponse.Failure? {
        return Failure(nextResponse.error);
      }
      var newResults := nextResponse.value.items;
      if |newResults| == 0 {
        assert results + [] == results;
        return Success(results);
      }
      parsed := parse(nextResponse.value.link);
      if parsed.Failure? {
        return Failure(parsed.error);
      }
      ghost var rest := FollowNext(server, parse, parsed.value, budget - 1);
      assert rest.Success? ==> results + (newResults + rest.value) == (results + newResults) + rest.value;
      links := parsed.value;
      results := results + newResults;
      budget := budget - 1;
    }
    assert results + [] == results;
    return Success(results);
  }

  /** The relations of the page at `url`, when it is present and its header parses. */
  function LinksAt<T>(server: Server<T>, parse: Parser, url: string): Option<map<string, string>> {
    if url in server && parse(server[url].link).Success? then
      Some(parse(server[url].link).value)
    else None
  }

  /** A page without a `next` relation is the whole collection. */
  lemma StopsWithoutNext<T>(server: Server<T>, parse: Parser, url: string, fuel: nat)
    requires LinksAt(server, parse, url).Some? && "next" !in LinksAt(server, parse, url).value
    ensures GetAllResponses(server, parse, url, fuel) == Success(server[url].items)
  {
    assert server[url].items + [] == server[url].items;
  }

  /** An empty next page ends the walk: it adds nothing and its own header,
      well-formed or not, is never read. */
  lemma StopsAtEmptyPage<T>(server: Server<T>, parse: Parser, url: string, fuel: nat)
    requires LinksAt(server, parse, url).Some? && "next" in LinksAt(server, parse, url).value
    requires LinksAt(server, parse, url).value["next"] in server
    requires |server[LinksAt(server, parse, url).value["next"]].items| == 0
    requires fuel > 0
    ensures GetAllResponses(server, parse, url, fuel) == Success(server[url].items)
  {
    assert server[url].items + [] == server[url].items;
  }

  /** Concatenation order: a non-empty next page contributes its items right
      after the current page's, followed by everything reached from it. */
  lemma NextPageFollows<T>(server: Server<T>, parse: Parser, url: string, fuel: nat)
    requires LinksAt(server, parse, url).Some? && "next" in LinksAt(server, parse, url).value
    requires LinksAt(server, parse, url).value["next"] in server
    requires |server[LinksAt(server, parse, url).value["next"]].items| > 0
    ensures GetAllResponses(server, parse, url, fuel + 1)
         == Prepend(server[url].items, GetAllResponses(server, parse, LinksAt(server, parse, url).value["next"], fuel))
  {
    var next := LinksAt(server, parse, url).value["next"];
    if parse(server[next].link).Success? {
      var rest := FollowNext(server, parse, parse(server[next].link).value, fuel);
      if rest.Success? {
        assert server[url].items + (server[next].items + rest.value)
            == (server[url].items + server[next].items) + rest.value;
      }
    }
  }

  /** More fuel changes nothing once a walk has finished. */
  lemma {:induction false} FollowNextFuel<T>(server: Server<T>, parse: Parser, links: map<string, string>, fuel: nat, more: nat)
    requires FollowNext(server, parse, links, fuel).Success? && fuel <= more
    ensures FollowNext(server, parse, links, more) == FollowNext(server, parse, links, fuel)
    decreases fuel
  {
    if "next" in links {
      var page := server[links["next"]];
      if |page.items| > 0 {
        FollowNextFuel(server, parse, parse(page.link).value, fuel - 1, more - 1);
      }
    }
  }

  lemma GetAllResponsesFuel<T>(server: Server<T>, parse: Parser, url: string, fuel: nat, more: nat)
    requires GetAllResponses(server, parse, url, fuel).Success? && fuel <= more
    ensures GetAllResponses(server, parse, url, more) == GetAllResponses(server, parse, url, fuel)
  {
    FollowNextFuel(server, parse, parse(server[url].link).value, fuel, more);
  }

  /** `urls` is a chain of pages as a paging server serves them: every page
      is present with a header that parses, every page after the first is
      non-empty, `next` leads from each page to the following one, and the
      last page has no `next`. */
  predicate IsChain<T>(server: Server<T>, parse: Parser, urls: seq<string>) {
    && |urls| >= 1
    && (forall i :: 0 <= i < |urls| ==> LinksAt(server, parse, urls[i]).Some?)
    && (forall i :: 1 <= i < |urls| ==> |server[urls[i]].items| > 0)
    && (forall i :: 0 <= i < |urls| - 1 ==>
          "next" in LinksAt(server, parse, urls[i]).value && LinksAt(server, parse, urls[i]).value["next"] == urls[i + 1])
    && "next" !in LinksAt(server, parse, urls[|urls| - 1]).value
  }

  /** The decoded items of the pages `urls`, page by page. */
  function PagesOf<T>(server: Server<T>, urls: seq<string>): seq<seq<T>>
    requires forall i :: 0 <= i < |urls| ==> urls[i] in server
  {
    seq(|urls|, i requires 0 <= i < |urls| => server[urls[i]].items)
  }

  /** A chain of P pages is collected completely and in order, with the P - 1
      follow-up requests the fuel allows. */
  lemma {:induction false} ChainCollected<T>(server: Server<T>, parse: Parser, urls: seq<string>, fuel: nat)
    requires IsChain(server, parse, urls) && fuel >= |urls| - 1
    ensures GetAllResponses(server, parse, urls[0], fuel) == Success(Flatten(PagesOf(server, urls)))
    decreases |urls|
  {
    var pages := PagesOf(server, urls);
    assert pages[1..] == PagesOf(server, urls[1..]);
    assert Flatten(pages) == server[urls[0]].items + Flatten(PagesOf(server, urls[1..]));
    if |urls| == 1 {
      StopsWithoutNext(server, parse, urls[0], fuel);
      assert Flatten(pages) == server[urls[0]].items + [];
    } else {
      assert IsChain(server, parse, urls[1..]);
      ChainCollected(server, parse, urls[1..], fuel - 1);
      NextPageFollows(server, parse, urls[0], fuel - 1);
    }
  }

  /** ... and with fewer requests allowed it cannot finish: every page of the
      chain has to be requested. */
  lemma {:induction false} ChainNeedsEveryPage<T>(server: Server<T>, parse: Parser, urls: seq<string>, fuel: nat)
    requires IsChain(server, parse, urls) && fuel < |urls| - 1
    ensures GetAllResponses(server, parse, urls[0], fuel) == Failure(PageLimit)
    decreases |urls|
  {
    if fuel > 0 {
      assert IsChain(server, parse, urls[1..]);
      ChainNeedsEveryPage(server, parse, urls[1..], fuel - 1);
      NextPageFollows(server, parse, urls[0], fuel - 1);
    }
  }
}

=== FILE: sequences.dfy ===
/** Order-aware views of `Array.prototype.filter` and `Array.prototype.sort`
    over immutable sequences. */
module Sequences {

  /** `a` can be obtained from `b` by deleting elements, order kept. */
  predicate IsSubsequence<T(==)>(a: seq<T>, b: seq<T>)
    decreases |b|
  {
    || |a| == 0
    || (&& |b| > 0
        && ((a[0] == b[0] && IsSubsequence(a[1..], b[1..])) || IsSubsequence(a, b[1..])))
  }

  /** `s.filter(keep)`: the elements satisfying `keep`, each as often as in
      `s`, in their original order, and nothing else. */
  function Filter<T(==,!new)>(s: seq<T>, keep: T -> bool): (r: seq<T>)
    ensures IsSubsequence(r, s)
    ensures forall i :: 0 <= i < |r| ==> keep(r[i])
    ensures forall x :: multiset(r)[x] == if keep(x) then multiset(s)[x] else 0
  {
    if |s| == 0 then []
    else
      var rest := Filter(s[1..], keep);
      assert s == [s[0]] + s[1..];
      if keep(s[0]) then
        assert ([s[0]] + rest)[1..] == rest;
        [s[0]] + rest
      else
        rest
  }

  /** Filtering decides the first element, then filters the rest. */
  lemma FilterCons<T(!new)>(x: T, s: seq<T>, keep: T -> bool)
    ensures Filter([x] + s, keep) == (if keep(x) then [x] else []) + Filter(s, keep)
  {
    assert ([x] + s)[1..] == s;
  }

  /** Filtering a concatenation filters each part. */
  lemma {:induction false} FilterAppend<T(!new)>(a: seq<T>, b: seq<T>, keep: T -> bool)
    ensures Filter(a + b, keep) == Filter(a, keep) + Filter(b, keep)
    decreases |a|
  {
    if |a| > 0 {
      var x, rest := a[0], a[1..];
      ConsAppend(a, b);
      FilterAppend(rest, b, keep);
      FilterCons(x, rest + b, keep);
      FilterCons(x, rest, keep);
      AppendAssoc(if keep(x) then [x] else [], Filter(rest, keep), Filter(b, keep));
    } else {
      EmptyAppend(a, b);
      EmptyAppend(Filter(a, keep), Filter(b, keep));
    }
  }

  lemma ConsAppend<T>(a: seq<T>, b: seq<T>)
    requires |a| > 0
    ensures a == [a[0]] + a[1..] && a + b == [a[0]] + (a[1..] + b)
  {
  }

  lemma AppendAssoc<T>(p: seq<T>, q: seq<T>, r: seq<T>)
    ensures (p + q) + r == p + (q + r)
  {
  }

  lemma EmptyAppend<T>(a: seq<T>, b: seq<T>)
    requires |a| == 0
    ensures a + b == b
  {
  }

  /** The pages of a paged collection, one after another. */
  function Flatten<T>(pages: seq<seq<T>>): seq<T> {
    if |pages| == 0 then [] else pages[0] + Flatten(pages[1..])
  }

  /** Keeping elements under a stronger test keeps a subsequence of what a
      weaker test keeps. */
  lemma {:induction false} FilterStronger<T(!new)>(s: seq<T>, strong: T -> bool, weak: T -> bool)
    requires forall x :: strong(x) ==> weak(x)
    ensures IsSubsequence(Filter(s, strong), Filter(s, weak))
    decreases |s|
  {
    if |s| > 0 {
      FilterStronger(s[1..], strong, weak);
      var a, b := Filter(s[1..], strong), Filter(s[1..], weak);
      if strong(s[0]) {
        assert Filter(s, strong) == [s[0]] + a;
        assert Filter(s, weak) == [s[0]] + b;
        assert ([s[0]] + a)[1..] == a;
        assert ([s[0]] + b)[1..] == b;
      } else if weak(s[0]) {
        assert Filter(s, strong) == a;
        assert Filter(s, weak) == [s[0]] + b;
        assert ([s[0]] + b)[1..] == b;
        SubsequenceOfTail(a, b, s[0]);
      } else {
        assert Filter(s, strong) == a;
        assert Filter(s, weak) == b;
      }
    }
  }

  /** A subsequence of `b` is also one of `[x] + b`. */
  lemma SubsequenceOfTail<T>(a: seq<T>, b: seq<T>, x: T)
    requires IsSubsequence(a, b)
    ensures IsSubsequence(a, [x] + b)
  {
    assert ([x] + b)[1..] == b;
  }

  /** Non-decreasing under `key`. */
  predicate SortedBy<T>(s: seq<T>, key: T -> int) {
    forall i, j :: 0 <= i < j < |s| ==> key(s[i]) <= key(s[j])
  }

  /** `x` placed into the sorted `s` after every element with a smaller key
      and before the first one whose key is equal or greater. */
  function InsertBy<T(==)>(x: T, s: seq<T>, key: T -> int): (r: seq<T>)
    requires SortedBy(s, key)
    ensures SortedBy(r, key)
    ensures multiset(r) == multiset(s) + multiset{x}
  {
    if |s| == 0 then [x]
    else if key(x) <= key(s[0]) then
      SortedCons(x, s, key);
      [x] + s
    else
      var y, t := s[0], s[1..];
      SortedTail(s, key);
      var rest := InsertBy(x, t, key);
      KeyBoundKept(y, x, t, rest, key);
      SortedCons(y, rest, key);
      HeadTail(s);
      MultisetCons(y, t);
      MultisetCons(y, rest);
      [y] + rest
  }

  /** The tail of a sorted sequence is sorted and bounded below by its head. */
  lemma SortedTail<T>(s: seq<T>, key: T -> int)
    requires |s| > 0 && SortedBy(s, key)
    ensures SortedBy(s[1..], key)
    ensures forall i :: 0 <= i < |s[1..]| ==> key(s[0]) <= key(s[1..][i])
  {
  }

  /** A head no greater than every element of a sorted sequence keeps it sorted. */
  lemma SortedCons<T>(y: T, s: seq<T>, key: T -> int)
    requires SortedBy(s, key) && forall i :: 0 <= i < |s| ==> key(y) <= key(s[i])
    ensures SortedBy([y] + s, key)
  {
    forall i, j | 0 <= i < j < |[y] + s|
      ensures key(([y] + s)[i]) <= key(([y] + s)[j])
    {
      if i > 0 {
        assert ([y] + s)[i] == s[i - 1];
      }
      assert ([y] + s)[j] == s[j - 1];
    }
  }

  /** A lower bound of `t` and `x` bounds every element of a sequence holding
      the elements of `t` and `x`. */
  lemma KeyBoundKept<T>(y: T, x: T, t: seq<T>, rest: seq<T>, key: T -> int)
    requires key(y) <= key(x) && forall i :: 0 <= i < |t| ==> key(y) <= key(t[i])
    requires multiset(rest) == multiset(t) + multiset{x}
    ensures forall i :: 0 <= i < |rest| ==> key(y) <= key(rest[i])
  {
    forall i | 0 <= i < |rest|
      ensures key(y) <= key(rest[i])
    {
      assert rest[i] in multiset(rest);
      if rest[i] != x {
        assert rest[i] in multiset(t);
        var k :| 0 <= k < |t| && t[k] == rest[i];
      }
    }
  }

  lemma HeadTail<T>(s: seq<T>)
    requires |s| > 0
    ensures s == [s[0]] + s[1..]
  {
  }

  lemma MultisetCons<T>(y: T, s: seq<T>)
    ensures multiset([y] + s) == multiset{y} + multiset(s)
  {
  }

  /** `s.sort((a, b) => key(a) - key(b))`: the same elements, non-decreasing
      by `key`. Each element is inserted in front of the equal keys after it,
      so elements with equal keys keep their order, as the stable
      `Array.prototype.sort` of ECMAScript 2019 keeps them. */
  function SortBy<T(==)>(s: seq<T>, key: T -> int): (r: seq<T>)
    ensures SortedBy(r, key)
    ensures multiset(r) == multiset(s)
  {
    if |s| == 0 then []
    else
      HeadTail(s);
      MultisetCons(s[0], s[1..]);
      InsertBy(s[0], SortBy(s[1..], key), key)
  }
}

=== FILE: sidebar.dfy ===
/** `populateSidebar`, `addStudentAssignments` and `fetchAllAssignments`:
    whose work is shown, one panel per student, one section per active course,
    and when a section is shown. The DOM is modelled by the data it would
    display; the per-course pipelines are evaluated one after another. */
module Sidebar {
  import opened Outcomes
  import opened Text
  import opened Sequences
  import opened Canvas
  import opened Assignments
  import Pagination
  import LinkHeader
  import Clock

  /** A student whose work gets a panel, with the label its heading starts with. */
  datatype Target = Target(student: StudentId, title: string)

  /** One target per observee, in order, labelled with the possessive of the
      observee's name. */
  function ObserveeTargets(observees: seq<Observee>): (r: seq<Target>)
    ensures |r| == |observees|
    ensures forall i :: 0 <= i < |r| ==> r[i].student == User(observees[i].id) && r[i].title == observees[i].name + "'s"
  {
    if |observees| == 0 then []
    else [Target(User(observees[0].id), observees[0].name + "'s")] + ObserveeTargets(observees[1..])
  }

  /** The observees when there are any, otherwise the signed-in user as "My". */
  function Targets(observees: seq<Observee>): (r: seq<Target>)
    ensures |observees| == 0 ==> r == [Target(Self, "My")]
    ensures |observees| > 0 ==> |r| == |observees| && forall i :: 0 <= i < |r| ==>
      r[i].student == User(observees[i].id) && r[i].title == observees[i].name + "'s"
  {
    if |observees| > 0 then ObserveeTargets(observees) else [Target(Self, "My")]
  }

  /** The signed-in user's own work is shown exactly when there are no
      observees, and then it is the only panel. */
  lemma SelfShownIffNoObservees(observees: seq<Observee>)
    ensures (exists i :: 0 <= i < |Targets(observees)| && Targets(observees)[i].student == Self) <==> |observees| == 0
    ensures |observees| == 0 ==> |Targets(observees)| == 1
  {
    if |observees| == 0 {
      assert Targets(observees)[0].student == Self;
    }
  }

  /** A list entry: the assignment link, its due time and the time of day
      printed as the source prints it. */
  datatype Row = Row(name: string, href: string, due: int, time: string)

  /** The local wall-clock reading of every instant is a valid time of day. */
  ghost predicate ValidClock(clock: int -> Clock.WallTime) {
    forall t :: Clock.Valid(clock(t))
  }

  /** One list entry. Its clock text shows the hours 0-12 unchanged and
      13-23 less twelve, with `PM` from noon on. */
  function RenderRow(a: Assignment, clock: int -> Clock.WallTime): (r: Row)
    requires ValidClock(clock)
    ensures var w := clock(r.due);
      Clock.ParseFace(r.time) == Some(Clock.Face(if w.hour > 12 then w.hour - 12 else w.hour, w.minute, w.hour >= 12))
  {
    Clock.AsWrittenShows(clock(DueTime(a)));
    Row(a.name, a.htmlUrl, DueTime(a), Clock.FormatAsWritten(clock(DueTime(a))))
  }

  /** `renderUnsubmittedAssignmentList`: one row per assignment, in list order. */
  function RenderRows(assignments: seq<Assignment>, clock: int -> Clock.WallTime): (r: seq<Row>)
    requires ValidClock(clock)
    ensures |r| == |assignments|
    ensures forall i :: 0 <= i < |r| ==>
      r[i].name == assignments[i].name && r[i].href == assignments[i].htmlUrl && r[i].due == DueTime(assignments[i])
    ensures forall i :: 0 <= i < |r| ==> Clock.ParseClock(r[i].time) == Some(clock(r[i].due))
    ensures forall i :: 0 <= i < |r| ==> var w := clock(r[i].due);
      Clock.ParseFace(r[i].time) == Some(Clock.Face(if w.hour > 12 then w.hour - 12 else w.hour, w.minute, w.hour >= 12))
  {
    seq(|assignments|, i requires 0 <= i < |assignments| => RenderRow(assignments[i], clock))
  }

  /** A course container: heading, link, visibility and list. */
  datatype Section = Section(courseName: string, href: string, visible: bool, rows: seq<Row>)

  /** A course's container. It starts hidden and is shown once its list
      arrives non-empty; a failed pipeline leaves it hidden and empty. */
  function CourseSection(api: Api, base: string, student: StudentId, course: Course, now: int, fuel: nat,
                         clock: int -> Clock.WallTime): (s: Section)
    requires ValidClock(clock)
    ensures s.courseName == course.name && s.href == "/courses/" + NatToString(course.id)
    ensures s.visible <==> |s.rows| > 0
    ensures s.visible <==> AssignmentsForCourse(api, base, student, course, now, fuel).Success?
                           && |AssignmentsForCourse(api, base, student, course, now, fuel).value| > 0
    ensures forall i, j :: 0 <= i < j < |s.rows| ==> s.rows[i].due <= s.rows[j].due
    ensures forall i :: 0 <= i < |s.rows| ==> Clock.ParseClock(s.rows[i].time) == Some(clock(s.rows[i].due))
  {
    var href := "/courses/" + NatToString(course.id);
    match AssignmentsForCourse(api, base, student, course, now, fuel)
    case Failure(_) => Section(course.name, href, false, [])
    case Success(listed) => Section(course.name, href, |listed| > 0, RenderRows(listed, clock))
  }

  /** A section is shown exactly when some fetched assignment of the course
      is open and has an unsubmitted submission. */
  lemma SectionShownIffOutstanding(api: Api, base: string, student: StudentId, course: Course, now: int, fuel: nat,
                                   clock: int -> Clock.WallTime, all: seq<Assignment>)
    requires ValidClock(clock)
    requires Pagination.GetAllResponses(api.assignments, LinkHeader.ParseLinkHeader, AssignmentsUrl(base, student, course), fuel)
             == Success(all)
    requires AttachSubmissions(OpenAssignments(all, now), base, student, course, api.submissions).Success?
    ensures CourseSection(api, base, student, course, now, fuel, clock).visible <==>
            exists a, b :: b in all && Qualifies(a, b, now, base, student, course, api.submissions)
  {
    CourseIsListed(api, base, student, course, now, fuel, all);
    ListedContents(all, now, base, student, course, api.submissions);
    var listed := Listed(all, now, base, student, course, api.submissions);
    if |listed| > 0 {
      assert listed[0] in listed;
    }
  }

  /** A student's panel: its heading and the sections of the student's
      active courses. */
  datatype Panel = Panel(heading: string, sections: seq<Section>)

  function CourseSections(api: Api, base: string, student: StudentId, courses: seq<Course>, now: int, fuel: nat,
                          clock: int -> Clock.WallTime): (r: seq<Section>)
    requires ValidClock(clock)
    ensures |r| == |courses|
    ensures forall i :: 0 <= i < |r| ==> r[i] == CourseSection(api, base, student, courses[i], now, fuel, clock)
  {
    seq(|courses|, i requires 0 <= i < |courses| => CourseSection(api, base, student, courses[i], now, fuel, clock))
  }

  /** `addStudentAssignments` with `fetchAllAssignments`: the heading names
      the student; there is one section per course the student may access, in
      the order the course list gives; a failed course fetch leaves the panel
      with only its heading. */
  function StudentPanel(api: Api, base: string, target: Target, now: int, fuel: nat,
                        clock: int -> Clock.WallTime): (p: Panel)
    requires ValidClock(clock)
    ensures p.heading == target.title + " Unsubmitted Assignments"
    ensures Pagination.GetAllResponses(api.courses, LinkHeader.ParseLinkHeader, CoursesUrl(base, target.student), fuel).Failure?
            ==> p.sections == []
    ensures Pagination.GetAllResponses(api.courses, LinkHeader.ParseLinkHeader, CoursesUrl(base, target.student), fuel).Success?
            ==> var active := FilterInactiveClasses(
                  Pagination.GetAllResponses(api.courses, LinkHeader.ParseLinkHeader, CoursesUrl(base, target.student), fuel).value);
                |p.sections| == |active| &&
                forall i :: 0 <= i < |active| ==> p.sections[i] == CourseSection(api, base, target.student, active[i], now, fuel, clock)
  {
    var heading := target.title + " Unsubmitted Assignments";
    match Pagination.GetAllResponses(api.courses, LinkHeader.ParseLinkHeader, CoursesUrl(base, target.student), fuel)
    case Failure(_) => Panel(heading, [])
    case Success(courses) =>
      Panel(heading, CourseSections(api, base, target.student, FilterInactiveClasses(courses), now, fuel, clock))
  }

  function Panels(api: Api, base: string, targets: seq<Target>, now: int, fuel: nat,
                  clock: int -> Clock.WallTime): (r: seq<Panel>)
    requires ValidClock(clock)
    ensures |r| == |targets|
    ensures forall i :: 0 <= i < |r| ==> r[i] == StudentPanel(api, base, targets[i], now, fuel, clock)
  {
    if |targets| == 0 then []
    else [StudentPanel(api, base, targets[0], now, fuel, clock)] + Panels(api, base, targets[1..], now, fuel, clock)
  }

  /** `populateSidebar`: the observee list is requested first; without it
      nothing is added. Then there is one panel per target, in target order. */
  function PopulateSidebar(api: Api, base: string, now: int, fuel: nat, clock: int -> Clock.WallTime)
    : (r: Result<seq<Panel>>)
    requires ValidClock(clock)
    ensures r.Success? <==> ObserveesUrl(base) in api.observees
    ensures r.Failure? ==> r.error == RequestFailed(ObserveesUrl(base))
    ensures r.Success? ==> var targets := Targets(api.observees[ObserveesUrl(base)]);
      |r.value| == |targets| &&
      forall i :: 0 <= i < |targets| ==> r.value[i] == StudentPanel(api, base, targets[i], now, fuel, clock)
  {
    var url := ObserveesUrl(base);
    if url !in api.observees then Failure(RequestFailed(url))
    else Success(Panels(api, base, Targets(api.observees[url]), now, fuel, clock))
  }
}

=== FILE: text.dfy ===
/** String utilities with the semantics of the JavaScript built-ins the
    extension relies on: `indexOf`, `split` with a one-character separator and
    template-literal rendering of non-negative integers. */
module Text {
  import opened Outcomes

  /** True iff `pat` occurs in `s` starting at index `i`. */
  predicate OccursAt(s: string, pat: string, i: int) {
    0 <= i && i + |pat| <= |s| && s[i..i + |pat|] == pat
  }

  /** The first index at or after `from` where `pat` occurs (`s.indexOf(pat, from)`). */
  function IndexOf(s: string, pat: string, from: nat): (r: Option<nat>)
    ensures r.Some? ==> from <= r.value && OccursAt(s, pat, r.value)
    ensures r.Some? ==> forall j :: from <= j < r.value ==> !OccursAt(s, pat, j)
    ensures r.None? ==> forall j :: from <= j ==> !OccursAt(s, pat, j)
    decreases |s| - from
  {
    if from + |pat| > |s| then None
    else if s[from..from + |pat|] == pat then Some(from)
    else IndexOf(s, pat, from + 1)
  }

  /** The last index `i` with `lo <= i` whose occurrence of `pat` ends at or
      before `hi`, if any. */
  function LastIndexIn(s: string, pat: string, lo: nat, hi: nat): (r: Option<nat>)
    requires |pat| > 0 && hi <= |s|
    ensures r.Some? ==> lo <= r.value && r.value + |pat| <= hi && OccursAt(s, pat, r.value)
    ensures r.Some? ==> forall j :: r.value < j && j + |pat| <= hi ==> !OccursAt(s, pat, j)
    ensures r.None? ==> forall j :: lo <= j && j + |pat| <= hi ==> !OccursAt(s, pat, j)
    decreases hi
  {
    if hi < lo + |pat| then None
    else if s[hi - |pat|..hi] == pat then Some(hi - |pat|)
    else LastIndexIn(s, pat, lo, hi - 1)
  }

  /** `parts` glued back together with `sep` between neighbours
      (`parts.join(sep)`). */
  function Join(parts: seq<string>, sep: char): string {
    if |parts| == 0 then ""
    else if |parts| == 1 then parts[0]
    else parts[0] + [sep] + Join(parts[1..], sep)
  }

  /** `s.split(sep)`: the maximal separator-free pieces of `s`, empty ones
      included, so that gluing them back with `sep` gives `s` again. */
  function Split(s: string, sep: char): (parts: seq<string>)
    ensures |parts| >= 1
    ensures forall i :: 0 <= i < |parts| ==> sep !in parts[i]
    ensures Join(parts, sep) == s
    decreases |s|
  {
    match IndexOf(s, [sep], 0)
    case None =>
      NotFoundAbsent(s, sep);
      [s]
    case Some(i) =>
      var rest := Split(s[i + 1..], sep);
      HeadBeforeFirst(s, sep, i);
      JoinCons(s[..i], rest, sep);
      [s[..i]] + rest
  }

  /** A character `indexOf` does not find does not occur. */
  lemma NotFoundAbsent(s: string, sep: char)
    requires IndexOf(s, [sep], 0).None?
    ensures sep !in s
  {
    if sep in s {
      var k :| 0 <= k < |s| && s[k] == sep;
      assert s[k..k + 1] == [sep];
      assert OccursAt(s, [sep], k);
    }
  }

  /** A one-character pattern occurs exactly where that character is. */
  lemma OccursAtChar(s: string, c: char, i: int)
    ensures OccursAt(s, [c], i) <==> 0 <= i < |s| && s[i] == c
  {
    if 0 <= i < |s| {
      assert s[i..i + 1] == [s[i]];
    }
  }

  /** `indexOf` of a one-character pattern finds the first position
      holding that character. */
  lemma FirstOccurrence(s: string, sep: char, i: nat)
    requires IndexOf(s, [sep], 0) == Some(i)
    ensures i < |s| && s[i] == sep && forall k :: 0 <= k < i ==> s[k] != sep
  {
    OccursAtChar(s, sep, i);
    forall k | 0 <= k < i
      ensures s[k] != sep
    {
      OccursAtChar(s, sep, k);
    }
  }

  /** Everything before the first separator is free of it. */
  lemma HeadBeforeFirst(s: string, sep: char, i: nat)
    requires IndexOf(s, [sep], 0) == Some(i)
    ensures i < |s| && sep !in s[..i] && s == s[..i] + [sep] + s[i + 1..]
  {
    FirstOccurrence(s, sep, i);
    CutAt(s, sep, i);
  }

  lemma CutAt(s: string, sep: char, i: nat)
    requires i < |s| && s[i] == sep && forall k :: 0 <= k < i ==> s[k] != sep
    ensures sep !in s[..i] && s == s[..i] + [sep] + s[i + 1..]
  {
    assert s[i..] == [sep] + s[i + 1..];
    assert s == s[..i] + s[i..];
  }

  lemma JoinCons(head: string, rest: seq<string>, sep: char)
    requires |rest| >= 1
    ensures Join([head] + rest, sep) == head + [sep] + Join(rest, sep)
  {
    assert ([head] + rest)[1..] == rest;
  }

  /** A character that does not occur in `s` is not found by `indexOf`. */
  lemma AbsentNotFound(s: string, c: char)
    requires c !in s
    ensures IndexOf(s, [c], 0).None?
  {
    forall k | 0 <= k < |s|
      ensures !OccursAt(s, [c], k)
    {
      assert s[k..k + 1] == [s[k]];
    }
  }

  /** Splitting undoes joining when no piece contains the separator. */
  lemma {:induction false} SplitJoin(parts: seq<string>, sep: char)
    requires |parts| >= 1
    requires forall i :: 0 <= i < |parts| ==> sep !in parts[i]
    ensures Split(Join(parts, sep), sep) == parts
    decreases |parts|
  {
    var s := Join(parts, sep);
    if |parts| == 1 {
      assert s == parts[0];
      AbsentNotFound(s, sep);
    } else {
      var tail := Join(parts[1..], sep);
      assert s == parts[0] + [sep] + tail;
      var i := |parts[0]|;
      assert OccursAt(s, [sep], i);
      forall j | 0 <= j < i
        ensures !OccursAt(s, [sep], j)
      {
        assert s[j] == parts[0][j];
      }
      assert IndexOf(s, [sep], 0) == Some(i);
      assert s[..i] == parts[0];
      assert s[i + 1..] == tail;
      SplitJoin(parts[1..], sep);
    }
  }

  predicate IsDigit(c: char) {
    '0' <= c <= '9'
  }

  predicate AllDigits(s: string) {
    forall i :: 0 <= i < |s| ==> IsDigit(s[i])
  }

  function DigitChar(d: nat): (c: char)
    requires d < 10
    ensures IsDigit(c)
  {
    ('0' as int + d) as char
  }

  function DigitValue(c: char): (d: nat)
    requires IsDigit(c)
    ensures d < 10
  {
    c as int - '0' as int
  }

  /** A digit string ends where the first non-digit begins: two digit
      strings each followed by a text starting with a non-digit can only
      give the same string when the digit strings are equal. */
  lemma DigitsDelimited(x: string, y: string, a: string, b: string)
    requires AllDigits(x) && AllDigits(y)
    requires |a| > 0 && !IsDigit(a[0]) && |b| > 0 && !IsDigit(b[0])
    requires x + a == y + b
    ensures x == y && a == b
  {
    DigitsNotCut(x, y, a, b);
    DigitsNotCut(y, x, b, a);
    assert x == (x + a)[..|x|];
    assert y == (y + b)[..|y|];
    assert a == (x + a)[|x|..];
    assert b == (y + b)[|y|..];
  }

  /** Two different numbers rendered in front of the same text starting with
      `/` give different strings. */
  lemma NatDelimited(n: nat, m: nat, a: string)
    requires n != m && |a| > 0 && a[0] == '/'
    ensures NatToString(n) + a != NatToString(m) + a
  {
    if NatToString(n) + a == NatToString(m) + a {
      DigitsDelimited(NatToString(n), NatToString(m), a, a);
      assert false;
    }
  }

  /** A common prefix can be cancelled. */
  lemma CancelPrefix(p: string, u: string, v: string)
    requires p + u == p + v
    ensures u == v
  {
    assert u == (p + u)[|p|..];
    assert v == (p + v)[|p|..];
  }

  /** The digits on the right cannot run past a non-digit on the left. */
  lemma DigitsNotCut(x: string, y: string, a: string, b: string)
    requires AllDigits(y) && |a| > 0 && !IsDigit(a[0])
    requires x + a == y + b
    ensures |y| <= |x|
  {
    if |x| < |y| {
      DigitAt(y, b, |x|);
      assert false;
    }
  }

  lemma DigitAt(y: string, b: string, k: int)
    ensures AllDigits(y) && 0 <= k < |y| ==> IsDigit((y + b)[k])
  {
  }

  /** The decimal value of a string of digits (leading zeros allowed). */
  function ParseNat(s: string): nat
    requires AllDigits(s)
  {
    if |s| == 0 then 0
    else ParseNat(s[..|s| - 1]) * 10 + DigitValue(s[|s| - 1])
  }

  /** The decimal rendering of `n` that `${n}` produces in a template literal:
      digits reading back as `n`, with no leading zero. */
  function NatToString(n: nat): (s: string)
    ensures |s| >= 1 && AllDigits(s)
    ensures ParseNat(s) == n
    ensures |s| == 1 || s[0] != '0'
  {
    if n < 10 then [DigitChar(n)]
    else
      var s := NatToString(n / 10) + [DigitChar(n % 10)];
      assert s[..|s| - 1] == NatToString(n / 10);
      s
  }
}
